=== FILE: README.md ===
# flat-db todo app: a Dafny model

This project models the core of the flat-db todo application. That is a React
front end with three state contexts (todos, users, priorities). It talks to an
Express server that keeps the todo table in a CSV file, `db.csv`. A one-off
script copies the CSV tables into a document store.

Every server handler reads the whole file. POST and DELETE then write the
whole changed list back, and so does PUT unless it answers 404; GET writes
nothing. The browser keeps its own copy of each list. Toggling a todo and
updating its user or its text build the request from that copy; every other
request is built from its arguments alone. The copy is updated when the reply
arrives, without looking at the HTTP status.

Modules:

- `Json` holds JavaScript values, plain objects (`map<string, Value>`, where an absent key is `undefined`), truthiness, and integers as decimal text (`String(n)` and `Number(s)`).
- `Http` holds requests, responses and a settled promise (`Resolved` or `Rejected`).
- `Seqs` and `Records` hold `Array.prototype.filter`, and find, replace and delete by `id`.
- `TodoServer` models `server/index.js`:
  - reading the file (`ParseTable`, and the `Server.ReadTodos` loop proved against it)
  - writing it (`Serialize`)
  - the four handlers as pure functions (`HandlePost`, `HandlePut`, `HandleDelete`)
  - the class `Server`, whose `file` field POST, DELETE and a PUT that finds its id rewrite; GET and a PUT answered with 404 leave it alone.
- `TodoContext`, `UserContext` and `PriorityContext` each model one React context:
  - a class holds the state cell;
  - functions build the request each action sends;
  - `Settle*` methods apply the settled reply.
- `LevelSort` is the sort used by `addPriority`: a stable insertion sort, proved sorted, a permutation and stable.
- `TodoList` models `src/components/TodoList.tsx`:
  - the user filter;
  - `String.prototype.trim`;
  - the inline editor (`editingId`, `editText`), as pure transitions (`Save`, `KeyDown`) plus the class `TodoListView` whose methods follow them.
- `Migrate` models `scripts/migrate.js`:
  - `readCSV`, `migrateCollection` (a loop over the records) and `migrateAll`;
  - which `setDoc` calls succeed is a parameter.
- `Sync` states what happens when the client and the server meet:
  - the user chosen in `addTodo` is dropped;
  - a user set by `updateTodoUser` is answered but not stored;
  - a 404 reply to an update replaces the local entry with the error object and strands it.

The model follows the code as written. For example, POST keeps only `id`,
`text` and `completed`; it does not store a default `userId`.

Things outside the program are parameters:

- `crypto.randomUUID()` is a `freshId` argument.
- `parseInt(…, 10)` is a `parseInt: string -> int` argument.
- Whether the document store accepts the i-th write is an `accepts` argument.
- Which CSV files exist and can be read is a `files: string -> CsvFile` argument.

## Model

| member | source | states |
|---|---|---|
| TodoServer.KeepRow | server/index.js:39 | the row, as the parser's object of strings, has a truthy id or text exactly when its id or text cell is non-empty |
| TodoServer.ParseTable | server/index.js:32-47 | at most one record per row; which rows are kept and what they become is stated by `ReadKeepsNonBlankRowsInOrder` and `ParseTableIsParsed` |
| TodoServer.ParseRow | server/index.js:41-43 | a kept row becomes a record with the row's columns plus `completed`; `completed` is `true` exactly when the cell reads `true` (missing column: `false`); every other cell is kept as a string |
| TodoServer.ParseTableAppend | server/index.js:32-47 | reading is row by row: the records of two concatenated row lists are the concatenated records |
| TodoServer.ReadKeepsNonBlankRowsInOrder | server/index.js:37-43 | a row contributes its record exactly when its id or text is non-empty, in file order, independent of the rows around it |
| TodoServer.ParseTableIsParsed | server/index.js:37-44 | every record read has a boolean `completed`, string fields otherwise and a non-empty id or text; from a canonical file, exactly the three columns |
| Json.Digits | server/index.js:50-60 | the decimal digits of a natural number, with no leading zero, which read back as that number |
| Json.Decimal | server/index.js:50-60 | `String(n)` for an integer: a minus sign exactly when `n` is negative, no leading zero, and the text converts back to `n` |
| TodoServer.Cell | server/index.js:50-60 | the writer's cell text: empty for `undefined` and `null`, the string itself for a string, `true` or `false` for a boolean, and for a number a text that converts back to it |
| TodoServer.ProjectRow | server/index.js:50-60 | the writer emits exactly the columns id, text, completed, each holding `Cell` of the record's field |
| TodoServer.Serialize | server/index.js:50-60 | one row per record, in order: row i is `ProjectRow` of record i |
| TodoServer.SerializeAppend | server/index.js:50-60 | writing is record by record: serialising a concatenation concatenates |
| TodoServer.ReadBackRecord | server/index.js:37-60 | a record with exactly the three columns, string id and text, boolean completed and a non-empty id or text, written as a row and read back, is kept and unchanged |
| TodoServer.WriteThenRead | server/index.js:32-61 | records with exactly the three columns, string id and text, boolean completed and a non-empty id or text are read back unchanged after a write |
| TodoServer.RewriteIsLossless | server/index.js:32-61 | rewriting a canonical file with what was read from it yields the same table |
| TodoServer.OnlyColumnsPersisted | server/index.js:53-57 | after any write, every record read back has exactly id, text and completed, so `userId` never survives |
| TodoServer.ReparseParsed | server/index.js:32-61 | a parsed record survives a write and re-read with the same id and the same columns |
| TodoServer.RereadCommutesWithDelete | server/index.js:104-109 | for records as reading yields them (`Parsed`: boolean `completed`, string fields, a non-empty id or text) and a non-empty id, deleting the id before or after a write-and-reread gives the same table |
| TodoServer.RewriteIsFixedPoint | server/index.js:32-61 | for records as reading yields them (`Parsed`), writing, reading back and writing again gives the same file as the first write |
| TodoServer.NewTodo | server/index.js:75-79 | the stored record has exactly the body's id, text and completed fields, verbatim; nothing else |
| TodoServer.HandlePost | server/index.js:72-86 | POST appends the new record after the unchanged old table and answers 200 with it |
| TodoServer.HandlePut | server/index.js:88-102 | PUT writes nothing and answers 404 `Todo not found` exactly when no record has the id; otherwise only the first such record changes, to the shallow merge (body fields win, others kept), answered with 200 |
| TodoServer.HandleDelete | server/index.js:104-113 | DELETE writes the table without every record with the id and answers `{success: true}` |
| TodoServer.PutMissingLeavesFile | server/index.js:92-98 | PUT with an unknown id leaves the file as it was and answers 404 |
| TodoServer.DeleteTwiceIsDeleteOnce | server/index.js:104-109 | a second DELETE of the same id leaves the file as the first left it |
| TodoServer.PostThenGet | server/index.js:63-82 | on a canonical file, GET after POST of a well-formed body is the old table plus the posted record, once |
| TodoServer.Server.constructor | server/index.js:19-30 | a missing file starts out holding no records |
| TodoServer.Server.ReadTodos | server/index.js:32-47 | the loop over the rows yields exactly the table of the file |
| TodoServer.Server.WriteTodos | server/index.js:50-61 | the file is replaced by the serialised list |
| TodoServer.Server.Get | server/index.js:63-70 | GET answers 200 with the table of the file |
| TodoServer.Server.Post | server/index.js:72-86 | the file and the answer are those of `HandlePost` on the table read |
| TodoServer.Server.Put | server/index.js:88-102 | the file and the answer are those of `HandlePut`; on 404 the file is untouched |
| TodoServer.Server.Delete | server/index.js:104-113 | the file and the answer are those of `HandleDelete` |
| Seqs.Filter | src/context/TodoContext.tsx:103 | at most as many elements as the input; what passes is stated by `FilterMembers` and `FilterCounts` |
| Seqs.FilterMembers | src/context/TodoContext.tsx:103 | every element of the result passes and comes from the input; every passing element of the input is in the result |
| Seqs.FilterCounts | src/context/TodoContext.tsx:103 | each passing element occurs in the result as often as in the input, every other element not at all |
| Records.WithoutId | src/context/TodoContext.tsx:103 | the result is an order-preserving subsequence holding exactly the records without the id, each as often as in the list |
| Records.WithoutIdIdempotent | src/context/TodoContext.tsx:103 | deleting an id twice equals deleting it once |
| Records.WithoutAbsentId | src/context/TodoContext.tsx:103 | deleting an id no record has changes nothing |
| Records.FindIndex | server/index.js:91 | the first position holding the id, or none exactly when no record has it |
| Records.FindById | src/context/TodoContext.tsx:52-53 | the first record holding the id (the one at `FindIndex`), or none exactly when no record has it |
| Records.ReplaceById | src/context/TodoContext.tsx:62 | same length; every record with the id is replaced, every other record kept in place |
| LevelSort.Insert | src/context/PriorityContext.tsx:37 | inserting into a sorted list adds exactly the element and keeps it sorted |
| LevelSort.Sort | src/context/PriorityContext.tsx:37 | the result is sorted by the key and a permutation of the input |
| LevelSort.InsertIsStable | src/context/PriorityContext.tsx:37 | inserting into a sorted list puts the new element after every element with the same key |
| LevelSort.SortIsStable | src/context/PriorityContext.tsx:37 | elements with equal keys keep their relative order |
| LevelSort.FilterKeepsSorted | src/context/PriorityContext.tsx:47 | filtering a sorted list leaves it sorted |
| TodoContext.AddTodo | src/context/TodoContext.tsx:39-45 | POST to `/api/todos` of `{id, text, completed: false, userId}` with the user or `''` |
| TodoContext.LoadTodos | src/context/TodoContext.tsx:33 | the initial load is a GET of `/api/todos` with no body |
| TodoContext.DeleteTodo | src/context/TodoContext.tsx:99-102 | DELETE of `/api/todos/<id>` with no body |
| TodoContext.TodoClient.constructor | src/context/TodoContext.tsx:30 | the list starts empty |
| TodoContext.TodoClient.ToggleTodo | src/context/TodoContext.tsx:51-59 | no request exactly when the id is not in the local list; otherwise a PUT whose `completed` negates that of the first local match |
| TodoContext.TodoClient.UpdateTodoUser | src/context/TodoContext.tsx:67-75 | no request exactly when the id is absent locally; otherwise a PUT of `{userId}` |
| TodoContext.TodoClient.UpdateTodoText | src/context/TodoContext.tsx:83-91 | no request exactly when the id is absent locally; otherwise a PUT of `{text}` |
| TodoContext.TodoClient.SettleLoad | src/context/TodoContext.tsx:32-37 | a fetched list replaces the local one; a failure leaves it |
| TodoContext.TodoClient.SettleAdd | src/context/TodoContext.tsx:46-48 | the reply body is appended to the list as it is at settlement |
| TodoContext.TodoClient.SettleUpdate | src/context/TodoContext.tsx:60-63 | every local record with the id is replaced by the reply body, whatever it is |
| TodoContext.TodoClient.SettleDelete | src/context/TodoContext.tsx:99-104 | on any reply every local record with the id is dropped; on failure nothing changes |
| UserContext.AddUser | src/context/UserContext.tsx:35-41 | POST to `/api/users` of `{id, name, color}` |
| UserContext.LoadUsers | src/context/UserContext.tsx:29 | the initial load is a GET of `/api/users` with no body |
| UserContext.DeleteUser | src/context/UserContext.tsx:47-50 | DELETE of `/api/users/<id>` with no body |
| UserContext.UserClient.constructor | src/context/UserContext.tsx:26 | the list starts empty |
| UserContext.UserClient.SettleLoad | src/context/UserContext.tsx:28-33 | a fetched list replaces the local one; a failure leaves it |
| UserContext.UserClient.SettleAdd | src/context/UserContext.tsx:42-44 | the reply body is appended |
| UserContext.UserClient.SettleDelete | src/context/UserContext.tsx:51 | every user with the id is dropped on any reply |
| PriorityContext.AddPriority | src/context/PriorityContext.tsx:28-35 | POST to `/api/priorities` of `{id, name, color, level}`, whose sort key is the level |
| PriorityContext.LoadPriorities | src/context/PriorityContext.tsx:22 | the initial load is a GET of `/api/priorities` with no body |
| PriorityContext.DeletePriority | src/context/PriorityContext.tsx:42-45 | DELETE of `/api/priorities/<id>` with no body |
| PriorityContext.Level | src/context/PriorityContext.tsx:37 | the number the comparator subtracts: a numeric level itself, a level written as decimal text its value, `true` 1, `false` 0, and `null`, `""` or a missing level 0 |
| PriorityContext.AddSorted | src/context/PriorityContext.tsx:37 | the list after an add is the old list plus the saved record, permuted into level order |
| PriorityContext.AddKeepsEqualLevelsInOrder | src/context/PriorityContext.tsx:37 | priorities of one level keep their order through an add, the saved one last among them |
| PriorityContext.DeleteKeepsSorted | src/context/PriorityContext.tsx:47 | deleting from a level-sorted list keeps it sorted |
| PriorityContext.PriorityClient.constructor | src/context/PriorityContext.tsx:19 | the list starts empty |
| PriorityContext.PriorityClient.SettleLoad | src/context/PriorityContext.tsx:21-26 | the fetched list is stored as it arrives, unsorted |
| PriorityContext.PriorityClient.SettleAdd | src/context/PriorityContext.tsx:35-39 | the list becomes the sorted add of the reply body |
| PriorityContext.PriorityClient.SettleDelete | src/context/PriorityContext.tsx:42-50 | every priority with the id is dropped on any reply |
| TodoList.TrimStart | src/components/TodoList.tsx:24-25 | drops exactly the leading blanks |
| TodoList.TrimEnd | src/components/TodoList.tsx:24-25 | drops exactly the trailing blanks |
| TodoList.Trim | src/components/TodoList.tsx:24-25 | empty exactly when the text is all blank; otherwise starts and ends with a non-blank |
| TodoList.TrimCutsOnlyBlanks | src/components/TodoList.tsx:24-25 | the trimmed text sits in the original between a blank prefix and a blank suffix |
| TodoList.TrimIdempotent | src/components/TodoList.tsx:24-25 | trimming twice is trimming once |
| TodoList.Shows | src/components/TodoList.tsx:12-16 | `all` passes every todo, `unassigned` exactly the todos with a falsy `userId`, and any other value exactly the todos whose `userId` is that string |
| TodoList.ShowsDisjoint | src/components/TodoList.tsx:12-16 | a todo shown under a non-empty user id is shown neither under `unassigned` nor under another user id |
| TodoList.FilterTodos | src/components/TodoList.tsx:12-16 | an order-preserving subsequence: everything for `all`; exactly the todos with an empty or missing user for `unassigned`; otherwise exactly the todos of that user; each kept todo as often as in the list |
| TodoList.Save | src/components/TodoList.tsx:23-28 | an update is sent exactly when an edit is open and the trimmed text is non-empty; it carries the trimmed text, which neither starts nor ends blank, and closes the editor; otherwise nothing changes |
| TodoList.KeyDown | src/components/TodoList.tsx:30-36 | Enter saves, Escape closes the editor with no update, any other key changes nothing |
| TodoList.TodoListView.constructor | src/components/TodoList.tsx:8-10 | filter `all`, no edit open, empty text |
| TodoList.TodoListView.SelectFilter | src/components/TodoList.tsx:52 | only the filter changes |
| TodoList.TodoListView.StartEditing | src/components/TodoList.tsx:18-21 | the editor opens on the todo's id and text |
| TodoList.TodoListView.ChangeText | src/components/TodoList.tsx:96 | only the edit text changes |
| TodoList.TodoListView.SaveEdit | src/components/TodoList.tsx:23-28 | the new editor state and the update sent are those of `Save` |
| TodoList.TodoListView.HandleKeyDown | src/components/TodoList.tsx:30-36 | the new editor state and the update sent are those of `KeyDown` |
| Migrate.CoerceRow | scripts/migrate.js:43-45 | same columns; `completed`, when present, is `true` exactly when the cell reads `true`; `level`, when present, is its parsed integer; other cells stay strings |
| Migrate.ReadRecords | scripts/migrate.js:39-51 | at most one record per row; their order and the keep test are stated by `ReadRecordsAppend` and `ReadRecordsKept` |
| Migrate.KeepRecordIff | scripts/migrate.js:47-48 | a row is kept exactly when its id, text or name cell is non-empty |
| Migrate.ReadRecordsAppend | scripts/migrate.js:39-51 | kept records come in file order, row by row |
| Migrate.ReadRecordsKept | scripts/migrate.js:47-50 | every record read passes the keep test |
| Migrate.ReadCsv | scripts/migrate.js:35-55 | a missing file gives no records, a readable one the kept coerced rows; an unreadable one gives `Rejected`, standing for the crash its unhandled stream error causes |
| Migrate.Payload | scripts/migrate.js:68-69 | the document data is the record without `id`, every other field unchanged |
| Migrate.Target | scripts/migrate.js:67-76 | the document is named by the id exactly when the id is truthy; otherwise the store generates one |
| Migrate.Accepted | scripts/migrate.js:64-83 | at most one write per record, all to the given collection |
| Migrate.AllAccepted | scripts/migrate.js:64-83 | when the store accepts every write, there is one write per record, and the i-th writes the i-th record's payload to the document its id names |
| Migrate.MigrateCollection | scripts/migrate.js:57-86 | rejects exactly when the file is unreadable; writes nothing for a missing file; otherwise writes the accepted records in order, and `successCount` counts them |
| Migrate.MigrationSucceedsIff | scripts/migrate.js:35-100 | the run (`Migration`) ends with exit code 0 exactly when no file is unreadable and no missing file is followed by a file that exists |
| Migrate.MigrationStopsAtGap | scripts/migrate.js:35-100 | the writes of a run are those of the steps before the first file that is not readable |
| Migrate.MigrationGaps | scripts/migrate.js:88-95 | a users.csv that cannot be read means no write at all; a priorities.csv that cannot be read means writes to `users` only |
| Migrate.MigrationRanksAtLeast | scripts/migrate.js:90-92 | given a rank that no step's collection is below, every write's collection has at least that rank |
| Migrate.MigrationFollowsSteps | scripts/migrate.js:90-92 | when the steps are in rank order (users, then priorities, then any other collection), so are the writes |
| Migrate.MigrationOrder | scripts/migrate.js:90-92 | all user writes come before all priority writes, which come before all todo writes |
| Migrate.MigrateAll | scripts/migrate.js:88-100 | the writes and the exit code are those of `Migration` on users, priorities and todos: exit code 0 exactly when no file is unreadable and no missing file comes before one that exists, else 1, with the writes made before that point |
| Sync.AddedTodoLosesUser | src/context/TodoContext.tsx:39-47 | the server stores and answers `{id, text, completed: false}` for the body `addTodo` sends; the user is gone |
| Sync.AddThenLoad | server/index.js:72-82 | on a file the server itself wrote, a todo added through the client with a non-empty id or text makes the next load the old table plus that todo, last |
| Sync.UserUpdateNotPersisted | server/index.js:88-95 | a PUT of `{userId}` to a stored todo is answered 200 with the user set, but no record read afterwards has a user |
| Sync.NotFoundStrandsEntry | src/context/TodoContext.tsx:60-63 | after a 404 reply the error object sits in the list, no entry has the id, and a delete of the id changes nothing |
| Sync.StrandedEntrySendsNothing | src/context/TodoContext.tsx:51-91 | after a 404 reply, toggling that id, assigning it any user or giving it any text sends no request |

## Left out

- The 500 answers and every other I/O failure of the server: reading or writing `db.csv` always succeeds in the model.
- Express routing, CORS and JSON body parsing: a request arrives as a verb, a path and an object body. Bodies that are not objects are not modelled.
- CSV quoting and escaping: a row is the map the parser emits, and the writer's cells are compared as the texts the parser would give back.
- Floating-point numbers: `Json.Value` numbers are integers.
- Json.Decimal: prints every digit of the integer. `String(n)` switches to exponent form (`"1e+21"`) from 1e21 in magnitude, so the cell the CSV writer produces for such a number differs.
- NaN: `parseInt` in `scripts/migrate.js` is a function to integers, so a level text it cannot parse is not modelled.
- PriorityContext.Level: the model converts a level text to a number only when it is an optional minus sign followed by digits. A text that JavaScript also converts to a number (white space around it, a plus sign, a fraction, an exponent, a hex prefix, `Infinity`) is sorted as 0 here rather than as that number. A level that JavaScript converts to NaN (any other text, a missing level) makes the comparator return NaN, which `sort` treats as 0; the comparator is then inconsistent and the order is up to the JavaScript engine, while the model sorts such a level as 0.
- Concurrency and timing: requests settle one at a time. Interleavings of two in-flight requests on the client, and of two handlers on the server, are not modelled; each settlement works on the list as it is when it settles.
- `server/index.js` has no `/api/users` or `/api/priorities` routes. The user and priority contexts are modelled up to the request they send and the list update on a reply; what answers them is not part of this model.
- `TodoList.TodoListView.StartEditing` takes the id and text as strings; a todo object without them is not modelled.
- JSX rendering, styling, the assigned-user lookup for display and the "No todos yet" placeholder are not modelled.
- Firebase setup, the emulator switch and console logging in `scripts/migrate.js` are left out. `setDoc` is reduced to an accepted or refused write recorded as an `Upload`.
- `process.exit` is the exit code `MigrateAll` returns.
- `readCSV` on a missing file resolves with no records, but it still opens a read stream on the file. The stream's error reaches no listener: the only `'error'` listener sits on the parser that `.pipe` returns. The process dies of it with exit code 1 at the next turn of the event loop, which comes when the next file is read, before any record of that file is written. If every later file is missing too, the run reaches `process.exit(0)` first. The model states only this outcome (`Migration`, `MigrateAll`), not the timing or the error output.
- `readCSV` on a file that exists but cannot be read: the same unhandled stream error kills the process, and the promise never settles. The model writes this as `Rejected`, which `MigrateAll` turns into the same writes and the same exit code 1; in the program the `catch` block and its "Migration failed" message are never reached.
- Records whose only truthy key field is non-string cannot arise from CSV text, so the keep test is stated on the row's cells.

=== FILE: http.dfy ===
/** The shapes exchanged between the browser and the API server. */
module Http {
  import opened Json

  datatype Verb = Get | Post | Put | Delete

  /** One `fetch` call: its method, its path and its JSON body, if any. */
  datatype Request = Request(verb: Verb, path: string, body: Option<Object>)

  /** A response body: a JSON array of records or a single JSON object. */
  datatype Body = Items(items: seq<Object>) | Fields(fields: Object)

  datatype Response = Response(status: int, body: Body)

  /** How a promise chain ends for the code that waits on it: it resolves with
      a value, or it is rejected (network failure, or a body that is not JSON). */
  datatype Settled<+T> = Resolved(value: T) | Rejected
}

=== FILE: json.dfy ===
/** JavaScript values as they travel through the application: JSON request and
    response bodies, records parsed from CSV rows, and the objects held in the
    browser's state cells. */
module Json {

  datatype Option<+T> = None | Some(value: T)

  /** A JSON scalar. Field values in this application are never nested arrays
      or objects. Numbers are integers here (see README, "Left out"). */
  datatype Value = Null | Bool(b: bool) | Num(n: int) | Str(s: string)

  /** A plain JavaScript object. A key that is absent reads as `undefined`. */
  type Object = map<string, Value>

  /** JavaScript truthiness of a field value (`null`, `false`, `0` and `""`
      are falsy). */
  predicate Truthy(v: Value) {
    match v
    case Null => false
    case Bool(b) => b
    case Num(n) => n != 0
    case Str(s) => s != ""
  }

  /** Truthiness of `o[key]`; an absent key is `undefined`, which is falsy. */
  predicate FieldTruthy(o: Object, key: string) {
    key in o && Truthy(o[key])
  }

  /** `o.id === id` for a string `id`: strict equality never holds between a
      string and `undefined` or a non-string value. */
  predicate HasId(o: Object, id: string) {
    "id" in o && o["id"] == Str(id)
  }

  // ----------------------------------------------------- numbers as text

  const DigitChars: string := "0123456789"

  predicate AllDigits(s: string) {
    forall i :: 0 <= i < |s| ==> '0' <= s[i] <= '9'
  }

  /** The value of a string of decimal digits, read left to right. */
  function DigitsValue(s: string): nat
    requires AllDigits(s)
  {
    if s == [] then 0 else DigitsValue(s[..|s| - 1]) * 10 + (s[|s| - 1] as int - '0' as int)
  }

  lemma DigitCharValue(d: nat)
    requires d < 10
    ensures '0' <= DigitChars[d] <= '9' && DigitChars[d] as int - '0' as int == d
  {
  }

  /** The decimal digits of `n`, as `String(n)` prints them: no leading zero,
      and reading them back gives `n`. */
  function Digits(n: nat): (s: string)
    ensures s != "" && AllDigits(s) && DigitsValue(s) == n
    ensures s[0] == '0' ==> s == "0"
    decreases n
  {
    DigitCharValue(n % 10);
    var front := if n < 10 then "" else Digits(n / 10);
    var s := front + [DigitChars[n % 10]];
    assert s[..|s| - 1] == front;
    s
  }

  /** `String(n)` for an integer `n` (below 1e21 in magnitude, where `String`
      would switch to exponent form): an optional minus sign, then digits. */
  function Decimal(n: int): (s: string)
    ensures DecimalNumber(s) == Some(n)
    ensures s != "" && (s[0] == '-' <==> n < 0)
    ensures s[0] == '0' ==> s == "0"
    ensures s[0] == '-' ==> |s| > 1 && s[1] != '0'
  {
    if n < 0 then
      var s := "-" + Digits(-n);
      assert s[1..] == Digits(-n);
      s
    else Digits(n)
  }

  /** `Number(s)` for a text that is an optional minus sign followed by one
      or more decimal digits; `None` for any other text. */
  function DecimalNumber(s: string): Option<int> {
    if |s| > 1 && s[0] == '-' && AllDigits(s[1..]) then Some(-(DigitsValue(s[1..]) as int))
    else if s != "" && AllDigits(s) then Some(DigitsValue(s))
    else None
  }
}

=== FILE: level_sort.dfy ===
/** `Array.prototype.sort` with a numeric comparator `(a, b) => key(a) - key(b)`.
    The language requires that sort to be stable, so its result is fixed: the
    elements ordered by key, equal keys in their original order. It is modelled
    here as an insertion sort. */
module LevelSort {
  import opened Seqs

  ghost predicate Sorted<T>(s: seq<T>, key: T -> int) {
    forall i, j :: 0 <= i < j < |s| ==> key(s[i]) <= key(s[j])
  }

  /** The test `x => key(x) == k`. */
  function KeyIs<T>(key: T -> int, k: int): T -> bool {
    x => key(x) == k
  }

  /** `x` placed after every leading element whose key is at most its own. */
  function Insert<T>(t: seq<T>, x: T, key: T -> int): (r: seq<T>)
    ensures multiset(r) == multiset(t) + multiset{x}
    ensures Sorted(t, key) ==> Sorted(r, key)
  {
    if t == [] then [x]
    else if key(t[0]) <= key(x) then
      var rest := Insert(t[1..], x, key);
      InsertBehindHead(t, x, rest, key);
      [t[0]] + rest
    else
      ConsSorted(x, t, key);
      assert t == [t[0]] + t[1..];
      [x] + t
  }

  /** A list stays sorted when an element no greater than all of it goes in
      front. */
  lemma ConsSorted<T>(h: T, s: seq<T>, key: T -> int)
    requires s != [] && key(h) <= key(s[0])
    ensures Sorted(s, key) ==> Sorted([h] + s, key)
  {
    if Sorted(s, key) {
      var r := [h] + s;
      forall i, j | 0 <= i < j < |r| ensures key(r[i]) <= key(r[j]) {
        assert r[j] == s[j - 1];
        if i > 0 {
          assert r[i] == s[i - 1];
        }
      }
    }
  }

  /** The recursive step of `Insert`: the head of `t` stays in front of the
      insertion into the rest. */
  lemma InsertBehindHead<T>(t: seq<T>, x: T, rest: seq<T>, key: T -> int)
    requires t != [] && key(t[0]) <= key(x)
    requires multiset(rest) == multiset(t[1..]) + multiset{x}
    requires Sorted(t[1..], key) ==> Sorted(rest, key)
    ensures multiset([t[0]] + rest) == multiset(t) + multiset{x}
    ensures Sorted(t, key) ==> Sorted([t[0]] + rest, key)
  {
    assert t == [t[0]] + t[1..];
    if Sorted(t, key) {
      assert Sorted(t[1..], key);
      assert x in multiset(rest);
      assert rest[0] in multiset(rest);
      assert rest[0] == x || rest[0] in t[1..];
      ConsSorted(t[0], rest, key);
    }
  }

  /** The stable sort of `s` by `key`. */
  function Sort<T>(s: seq<T>, key: T -> int): (r: seq<T>)
    ensures Sorted(r, key)
    ensures multiset(r) == multiset(s)
  {
    if s == [] then []
    else
      assert s == s[..|s| - 1] + [s[|s| - 1]];
      Insert(Sort(s[..|s| - 1], key), s[|s| - 1], key)
  }

  lemma {:induction false} NoneWithSmallerKey<T>(t: seq<T>, key: T -> int, k: int)
    requires Sorted(t, key) && t != [] && k < key(t[0])
    ensures Filter(t, KeyIs(key, k)) == []
  {
    FilterDropsAll(t, KeyIs(key, k));
  }

  /** Inserting keeps the order among equal keys, with `x` after its equals. */
  lemma {:induction false} InsertIsStable<T>(t: seq<T>, x: T, key: T -> int, k: int)
    requires Sorted(t, key)
    ensures Filter(Insert(t, x, key), KeyIs(key, k)) == Filter(t, KeyIs(key, k)) + Filter([x], KeyIs(key, k))
  {
    var p := KeyIs(key, k);
    if t == [] {
      assert Insert(t, x, key) == [x];
      assert Filter(t, p) == [];
    } else if key(t[0]) <= key(x) {
      assert Sorted(t[1..], key);
      InsertIsStable(t[1..], x, key, k);
      assert Insert(t, x, key) == [t[0]] + Insert(t[1..], x, key);
      assert t == [t[0]] + t[1..];
      FilterCons(t[0], Insert(t[1..], x, key), t[1..], [x], p);
    } else {
      InsertBeforeHead(t, x, key, k);
    }
  }

  /** Putting the same element in front of two lists whose filtered forms
      differ by a suffix keeps them differing by that suffix. */
  lemma FilterCons<T>(h: T, a: seq<T>, b: seq<T>, c: seq<T>, p: T -> bool)
    requires Filter(a, p) == Filter(b, p) + Filter(c, p)
    ensures Filter([h] + a, p) == Filter([h] + b, p) + Filter(c, p)
  {
    FilterAppend([h], a, p);
    FilterAppend([h], b, p);
    AppendAssociative(Filter([h], p), Filter(b, p), Filter(c, p));
  }

  /** The step of `InsertIsStable` where `x` goes before the head of `t`: no
      element of `t` shares its key. */
  lemma InsertBeforeHead<T>(t: seq<T>, x: T, key: T -> int, k: int)
    requires Sorted(t, key) && t != [] && key(x) < key(t[0])
    ensures Filter(Insert(t, x, key), KeyIs(key, k)) == Filter(t, KeyIs(key, k)) + Filter([x], KeyIs(key, k))
  {
    var p := KeyIs(key, k);
    assert Insert(t, x, key) == [x] + t;
    FilterAppend([x], t, p);
    if key(x) == k {
      NoneWithSmallerKey(t, key, k);
      assert Filter([x], p) == [x];
    } else {
      assert Filter([x], p) == [];
    }
  }

  /** Stability: the elements with any one key appear in the sorted list in
      the order they had before. */
  lemma {:induction false} SortIsStable<T>(s: seq<T>, key: T -> int, k: int)
    ensures Filter(Sort(s, key), KeyIs(key, k)) == Filter(s, KeyIs(key, k))
  {
    if s != [] {
      var init, last := s[..|s| - 1], s[|s| - 1];
      SortIsStable(init, key, k);
      InsertIsStable(Sort(init, key), last, key, k);
      assert s == init + [last];
      FilterAppend(init, [last], KeyIs(key, k));
    }
  }

  /** Dropping elements from a sorted list leaves it sorted. */
  lemma {:induction false} FilterKeepsSorted<T>(s: seq<T>, p: T -> bool, key: T -> int)
    requires Sorted(s, key)
    ensures Sorted(Filter(s, p), key)
  {
    if s != [] {
      FilterKeepsSorted(s[1..], p, key);
      FilterMembers(s[1..], p);
      var rest := Filter(s[1..], p);
      forall j | 0 <= j < |rest| ensures key(s[0]) <= key(rest[j]) {
        assert rest[j] in s[1..];
      }
    }
  }
}

=== FILE: migrate.dfy ===
/** The one-off script that copies the CSV tables into the document store:
    each file is read into records (with `completed` and `level` coerced and
    blank rows dropped), and each record is written as one document. Which
    writes the store accepts is a parameter. */
module Migrate {
  import opened Json
  import opened Http
  import opened Seqs
  import opened TodoServer

  /** A CSV file as the script finds it. */
  datatype CsvFile = Missing | Readable(rows: seq<Row>) | Unreadable

  /** The document a record is written to: the one named by its id, or a new
      one whose id the store generates. */
  datatype DocRef = Named(id: Value) | Generated

  /** One `setDoc` call that the store accepted. */
  datatype Upload = Upload(collection: string, doc: DocRef, data: Object)

  /** What `migrateCollection` did: the accepted writes and `successCount`. */
  datatype Report = Report(written: seq<Upload>, successCount: nat)

  // ---------------------------------------------------------------- reading

  /** The per-row callback of `readCSV`: every cell is a string, except that
      `completed` becomes `completed === 'true'` and `level` becomes
      `parseInt(level, 10)`, each only when its column is present. */
  function CoerceRow(row: Row, parseInt: string -> int): (o: Object)
    ensures o.Keys == row.Keys
    ensures "completed" in row ==> (o["completed"] == Bool(true) <==> row["completed"] == "true")
    ensures "completed" in row ==> o["completed"].Bool?
    ensures "level" in row ==> o["level"] == Num(parseInt(row["level"]))
    ensures forall k :: k in row && k != "completed" && k != "level" ==> o[k] == Str(row[k])
  {
    var strings := map k | k in row :: Str(row[k]);
    var withCompleted :=
      if "completed" in row then strings["completed" := Bool(row["completed"] == "true")] else strings;
    if "level" in row then withCompleted["level" := Num(parseInt(row["level"]))] else withCompleted
  }

  /** A record is kept when it has a field and a truthy `id`, `text` or `name`. */
  predicate KeepRecord(o: Object) {
    |o| > 0 && (FieldTruthy(o, "id") || FieldTruthy(o, "text") || FieldTruthy(o, "name"))
  }

  /** A row survives exactly when one of its `id`, `text` or `name` cells is
      non-empty; the `|o| > 0` test never decides anything on its own. */
  lemma KeepRecordIff(row: Row, parseInt: string -> int)
    ensures KeepRecord(CoerceRow(row, parseInt)) <==>
      (("id" in row && row["id"] != "") || ("text" in row && row["text"] != "") ||
       ("name" in row && row["name"] != ""))
  {
    var o := CoerceRow(row, parseInt);
    if "id" in row && row["id"] != "" {
      assert "id" in o;
    } else if "text" in row && row["text"] != "" {
      assert "text" in o;
    } else if "name" in row && row["name"] != "" {
      assert "name" in o;
    }
  }

  /** What one row contributes: its record, or nothing when it is blank. */
  function Kept(row: Row, parseInt: string -> int): seq<Object> {
    if KeepRecord(CoerceRow(row, parseInt)) then [CoerceRow(row, parseInt)] else []
  }

  /** The records `readCSV` resolves with for the rows of an existing file. */
  function ReadRecords(rows: seq<Row>, parseInt: string -> int): (records: seq<Object>)
    ensures |records| <= |rows|
  {
    if rows == [] then [] else Kept(rows[0], parseInt) + ReadRecords(rows[1..], parseInt)
  }

  /** Kept rows stay in file order. */
  lemma {:induction false} ReadRecordsAppend(a: seq<Row>, b: seq<Row>, parseInt: string -> int)
    ensures ReadRecords(a + b, parseInt) == ReadRecords(a, parseInt) + ReadRecords(b, parseInt)
  {
    if a == [] {
      assert a + b == b;
    } else {
      assert (a + b)[0] == a[0] && (a + b)[1..] == a[1..] + b;
      ReadRecordsAppend(a[1..], b, parseInt);
      var head := Kept(a[0], parseInt);
      assert ReadRecords(a + b, parseInt) == head + ReadRecords(a[1..] + b, parseInt);
      assert ReadRecords(a, parseInt) == head + ReadRecords(a[1..], parseInt);
      AppendAssociative(head, ReadRecords(a[1..], parseInt), ReadRecords(b, parseInt));
    }
  }

  /** One more row read: its record, if kept, goes after those before it. */
  lemma ReadRecordsStep(rows: seq<Row>, i: nat, parseInt: string -> int)
    requires i < |rows|
    ensures ReadRecords(rows[..i + 1], parseInt) == ReadRecords(rows[..i], parseInt) + Kept(rows[i], parseInt)
  {
    assert rows[..i + 1] == rows[..i] + [rows[i]];
    ReadRecordsAppend(rows[..i], [rows[i]], parseInt);
    assert ReadRecords([rows[i]], parseInt) == Kept(rows[i], parseInt) + ReadRecords([], parseInt);
  }

  /** Every record read has a field and a truthy `id`, `text` or `name`. */
  lemma {:induction false} ReadRecordsKept(rows: seq<Row>, parseInt: string -> int)
    ensures forall i :: 0 <= i < |ReadRecords(rows, parseInt)| ==> KeepRecord(ReadRecords(rows, parseInt)[i])
  {
    if rows != [] {
      ReadRecordsKept(rows[1..], parseInt);
      var head := Kept(rows[0], parseInt);
      var rest := ReadRecords(rows[1..], parseInt);
      assert ReadRecords(rows, parseInt) == head + rest;
      forall i | 0 <= i < |head + rest| ensures KeepRecord((head + rest)[i]) {
        if i >= |head| {
          assert (head + rest)[i] == rest[i - |head|];
        }
      }
    }
  }

  /** `readCSV`: a missing file gives no records, and otherwise each row is
      coerced, checked and pushed in turn. For a file that exists but cannot
      be read, the read stream's error reaches no listener: the promise never
      settles and the process dies with exit code 1. `Rejected` stands for
      that here, and `MigrateAll` turns it into the same exit code. */
  method ReadCsv(file: CsvFile, parseInt: string -> int) returns (result: Settled<seq<Object>>)
    ensures file.Missing? ==> result == Resolved([])
    ensures file.Unreadable? ==> result == Rejected
    ensures file.Readable? ==> result == Resolved(ReadRecords(file.rows, parseInt))
  {
    match file
    case Missing =>
      result := Resolved([]);
    case Unreadable =>
      result := Rejected;
    case Readable(rows) =>
      var results := [];
      var i := 0;
      while i < |rows|
        invariant 0 <= i <= |rows|
        invariant results == ReadRecords(rows[..i], parseInt)
      {
        var data := CoerceRow(rows[i], parseInt);
        ReadRecordsStep(rows, i, parseInt);
        if KeepRecord(data) {
          results := results + [data];
        }
        i := i + 1;
      }
      assert rows[..i] == rows;
      result := Resolved(results);
  }

  // -------------------------------------------------------------- uploading

  /** `const { id, ...data } = record`: the record without its `id`, every
      other field unchanged. */
  function Payload(record: Object): (data: Object)
    ensures data.Keys == record.Keys - {"id"}
    ensures forall k :: k in data ==> data[k] == record[k]
  {
    map k | k in record && k != "id" :: record[k]
  }

  /** The document for a record: named by `record.id` when that is truthy,
      generated by the store otherwise. */
  function Target(record: Object): (d: DocRef)
    ensures d.Named? <==> FieldTruthy(record, "id")
    ensures d.Named? ==> d.id == record["id"]
  {
    if FieldTruthy(record, "id") then Named(record["id"]) else Generated
  }

  /** The writes the store accepts when `records` are uploaded in order to
      `collection`; `accepts(i)` says whether the i-th `setDoc` succeeds. */
  function Accepted(records: seq<Object>, collection: string, accepts: nat -> bool): (w: seq<Upload>)
    ensures |w| <= |records|
    ensures forall j :: 0 <= j < |w| ==> w[j].collection == collection
  {
    if records == [] then []
    else
      var n := |records| - 1;
      Accepted(records[..n], collection, accepts)
        + (if accepts(n) then [Upload(collection, Target(records[n]), Payload(records[n]))] else [])
  }

  /** One more record uploaded: its write, if accepted, goes after the
      earlier ones. */
  lemma AcceptedStep(records: seq<Object>, i: nat, collection: string, accepts: nat -> bool)
    requires i < |records|
    ensures Accepted(records[..i + 1], collection, accepts)
         == Accepted(records[..i], collection, accepts)
            + (if accepts(i) then [Upload(collection, Target(records[i]), Payload(records[i]))] else [])
  {
    assert records[..i + 1][..i] == records[..i];
  }

  /** Every record is written when the store accepts every write: the i-th
      write is the i-th record's payload, to the document it names. */
  lemma {:induction false} AllAccepted(records: seq<Object>, collection: string, accepts: nat -> bool)
    requires forall i :: 0 <= i < |records| ==> accepts(i)
    ensures |Accepted(records, collection, accepts)| == |records|
    ensures forall i :: 0 <= i < |records| ==>
      Accepted(records, collection, accepts)[i] == Upload(collection, Target(records[i]), Payload(records[i]))
  {
    if records != [] {
      var n := |records| - 1;
      var front := records[..n];
      AllAccepted(front, collection, accepts);
      var w := Accepted(records, collection, accepts);
      assert w == Accepted(front, collection, accepts) + [Upload(collection, Target(records[n]), Payload(records[n]))];
      forall i | 0 <= i < |records|
        ensures w[i] == Upload(collection, Target(records[i]), Payload(records[i]))
      {
        if i < n {
          assert front[i] == records[i];
        }
      }
    }
  }

  /** `migrateCollection`: read the file, then write each record, counting
      the writes that succeed. A failed read ends the run (see `ReadCsv`). */
  method MigrateCollection(file: CsvFile, collection: string, parseInt: string -> int,
                           accepts: nat -> bool)
    returns (result: Settled<Report>)
    ensures file.Unreadable? <==> result.Rejected?
    ensures file.Missing? ==> result == Resolved(Report([], 0))
    ensures result.Resolved? ==>
      var records := FileRecords(file, parseInt);
      && result.value.written == Accepted(records, collection, accepts)
      && result.value.successCount == |result.value.written| <= |records|
  {
    var read := ReadCsv(file, parseInt);
    if read.Rejected? {
      return Rejected;
    }
    var records := read.value;
    var written := [];
    var successCount := 0;
    var i := 0;
    while i < |records|
      invariant 0 <= i <= |records|
      invariant written == Accepted(records[..i], collection, accepts)
      invariant successCount == |written|
    {
      var record := records[i];
      AcceptedStep(records, i, collection, accepts);
      if accepts(i) {
        written := written + [Upload(collection, Target(record), Payload(record))];
        successCount := successCount + 1;
      }
      i := i + 1;
    }
    assert records[..i] == records;
    result := Resolved(Report(written, successCount));
  }

  /** The records a file yields: none when it is missing. */
  function FileRecords(file: CsvFile, parseInt: string -> int): seq<Object> {
    match file
    case Readable(rows) => ReadRecords(rows, parseInt)
    case _ => []
  }

  /** The three migrations in the order `migrateAll` runs them: CSV file name
      and collection. */
  const Order: seq<(string, string)> :=
    [("users.csv", "users"), ("priorities.csv", "priorities"), ("db.csv", "todos")]

  /** Every step's file is missing. */
  predicate AllMissing(steps: seq<(string, string)>, files: string -> CsvFile) {
    forall s :: 0 <= s < |steps| ==> files(steps[s].0).Missing?
  }

  /** The writes of running the steps in order, and whether the run ends with
      exit code 0. An unreadable file ends the run. So does a missing file,
      unless every later file is missing too: `readCSV` resolves with `[]` for
      it but still opens a read stream whose error no listener handles, and
      that error kills the process as soon as the next read waits on the event
      loop. When only missing files follow, the run reaches `process.exit(0)`
      before that happens. */
  function Migration(steps: seq<(string, string)>, files: string -> CsvFile, parseInt: string -> int,
                     accepts: (string, nat) -> bool): (r: (seq<Upload>, bool))
  {
    if steps == [] then ([], true)
    else match files(steps[0].0)
      case Unreadable => ([], false)
      case Missing => ([], AllMissing(steps[1..], files))
      case Readable(_) =>
        var collection := steps[0].1;
        var here := Accepted(FileRecords(files(steps[0].0), parseInt), collection, AcceptsIn(accepts, collection));
        var rest := Migration(steps[1..], files, parseInt, accepts);
        (here + rest.0, rest.1)
  }

  /** The run ends with exit code 0 exactly when no file is unreadable and no
      missing file is followed by one that is present. */
  lemma {:induction false} MigrationSucceedsIff(steps: seq<(string, string)>, files: string -> CsvFile,
                                                parseInt: string -> int, accepts: (string, nat) -> bool)
    ensures Migration(steps, files, parseInt, accepts).1 <==>
      && (forall s :: 0 <= s < |steps| ==> !files(steps[s].0).Unreadable?)
      && (forall s, t :: 0 <= s < t < |steps| && files(steps[s].0).Missing? ==> files(steps[t].0).Missing?)
  {
    if steps != [] {
      assert forall t :: 0 < t < |steps| ==> steps[t] == steps[1..][t - 1];
      if files(steps[0].0).Readable? {
        MigrationSucceedsIff(steps[1..], files, parseInt, accepts);
      }
    }
  }

  /** The run writes nothing past a file it cannot read: its writes are those
      of the steps before the first file that is not readable. */
  lemma {:induction false} MigrationStopsAtGap(steps: seq<(string, string)>, files: string -> CsvFile,
                                               parseInt: string -> int, accepts: (string, nat) -> bool, k: nat)
    requires k < |steps| && !files(steps[k].0).Readable?
    ensures Migration(steps, files, parseInt, accepts).0 == Migration(steps[..k], files, parseInt, accepts).0
  {
    if k > 0 && files(steps[0].0).Readable? {
      assert steps[1..][k - 1] == steps[k];
      MigrationStopsAtGap(steps[1..], files, parseInt, accepts, k - 1);
      assert steps[..k][0] == steps[0] && steps[..k][1..] == steps[1..][..k - 1];
    } else if k > 0 {
      assert steps[..k][0] == steps[0];
    }
  }

  /** For the three migrations: a users.csv that cannot be read means no
      write at all, and a priorities.csv that cannot be read means writes to
      `users` only. */
  lemma MigrationGaps(files: string -> CsvFile, parseInt: string -> int, accepts: (string, nat) -> bool)
    ensures !files("users.csv").Readable? ==> Migration(Order, files, parseInt, accepts).0 == []
    ensures !files("priorities.csv").Readable? ==>
      forall u :: u in Migration(Order, files, parseInt, accepts).0 ==> u.collection == "users"
  {
    assert Order[0] == ("users.csv", "users") && Order[1] == ("priorities.csv", "priorities");
    if !files("users.csv").Readable? {
      MigrationStopsAtGap(Order, files, parseInt, accepts, 0);
      assert Order[..0] == [];
    }
    if !files("priorities.csv").Readable? {
      MigrationStopsAtGap(Order, files, parseInt, accepts, 1);
      var first := Order[..1];
      assert first[0] == ("users.csv", "users") && first[1..] == [];
      forall u | u in Migration(first, files, parseInt, accepts).0 ensures u.collection == "users" {
        var w := Migration(first, files, parseInt, accepts).0;
        var j :| 0 <= j < |w| && w[j] == u;
      }
    }
  }

  /** Whether the store accepts the i-th write to `collection`. */
  function AcceptsIn(accepts: (string, nat) -> bool, collection: string): nat -> bool {
    (i: nat) => accepts(collection, i)
  }

  function Rank(collection: string): nat {
    if collection == "users" then 0 else if collection == "priorities" then 1 else 2
  }

  lemma {:induction false} MigrationRanksAtLeast(steps: seq<(string, string)>, files: string -> CsvFile,
                                                 parseInt: string -> int, accepts: (string, nat) -> bool, low: nat)
    requires forall s :: 0 <= s < |steps| ==> low <= Rank(steps[s].1)
    ensures forall u :: u in Migration(steps, files, parseInt, accepts).0 ==> low <= Rank(u.collection)
  {
    if steps != [] && files(steps[0].0).Readable? {
      var collection := steps[0].1;
      var here := Accepted(FileRecords(files(steps[0].0), parseInt), collection, AcceptsIn(accepts, collection));
      var rest := Migration(steps[1..], files, parseInt, accepts).0;
      MigrationRanksAtLeast(steps[1..], files, parseInt, accepts, low);
      var w := here + rest;
      assert w == Migration(steps, files, parseInt, accepts).0;
      forall u | u in w ensures low <= Rank(u.collection) {
        if u in here {
          var j :| 0 <= j < |here| && here[j] == u;
        } else {
          assert u in rest;
        }
      }
    }
  }

  /** No upload to a later collection comes before one to an earlier one. */
  predicate RankOrdered(w: seq<Upload>) {
    forall i, j :: 0 <= i < j < |w| ==> Rank(w[i].collection) <= Rank(w[j].collection)
  }

  lemma ConcatRankOrdered(here: seq<Upload>, rest: seq<Upload>, collection: string)
    requires forall j :: 0 <= j < |here| ==> here[j].collection == collection
    requires forall u :: u in rest ==> Rank(collection) <= Rank(u.collection)
    requires RankOrdered(rest)
    ensures RankOrdered(here + rest)
  {
    var w := here + rest;
    forall i, j | 0 <= i < j < |w| ensures Rank(w[i].collection) <= Rank(w[j].collection) {
      if j < |here| {
        assert w[i] == here[i] && w[j] == here[j];
      } else if i < |here| {
        assert w[i] == here[i] && w[j] == rest[j - |here|];
        assert rest[j - |here|] in rest;
      } else {
        assert w[i] == rest[i - |here|] && w[j] == rest[j - |here|];
      }
    }
  }

  lemma {:induction false} MigrationFollowsSteps(steps: seq<(string, string)>, files: string -> CsvFile,
                                                 parseInt: string -> int, accepts: (string, nat) -> bool)
    requires forall a, b :: 0 <= a < b < |steps| ==> Rank(steps[a].1) <= Rank(steps[b].1)
    ensures RankOrdered(Migration(steps, files, parseInt, accepts).0)
  {
    if steps != [] && files(steps[0].0).Readable? {
      var collection := steps[0].1;
      var here := Accepted(FileRecords(files(steps[0].0), parseInt), collection, AcceptsIn(accepts, collection));
      var rest := Migration(steps[1..], files, parseInt, accepts).0;
      MigrationFollowsSteps(steps[1..], files, parseInt, accepts);
      MigrationRanksAtLeast(steps[1..], files, parseInt, accepts, Rank(collection));
      ConcatRankOrdered(here, rest, collection);
    }
  }

  /** Uploads are grouped by collection in the order users, priorities, todos:
      no write to a later collection comes before one to an earlier one. */
  lemma MigrationOrder(files: string -> CsvFile, parseInt: string -> int, accepts: (string, nat) -> bool)
    ensures RankOrdered(Migration(Order, files, parseInt, accepts).0)
  {
    MigrationFollowsSteps(Order, files, parseInt, accepts);
  }

  /** The first step of a run: the writes of its file, if readable, and then
      the rest of the run; nothing more when its file is missing. */
  lemma MigrationHead(steps: seq<(string, string)>, files: string -> CsvFile, parseInt: string -> int,
                      accepts: (string, nat) -> bool)
    requires steps != []
    ensures files(steps[0].0).Unreadable? ==> Migration(steps, files, parseInt, accepts) == ([], false)
    ensures files(steps[0].0).Missing? ==>
      Migration(steps, files, parseInt, accepts) == ([], AllMissing(steps[1..], files))
    ensures files(steps[0].0).Readable? ==>
      var rest := Migration(steps[1..], files, parseInt, accepts);
      Migration(steps, files, parseInt, accepts)
        == (Accepted(FileRecords(files(steps[0].0), parseInt), steps[0].1, AcceptsIn(accepts, steps[0].1))
              + rest.0, rest.1)
  {
  }

  /** The steps of `Order` one by one, and which of its tails are all missing. */
  lemma OrderSteps(files: string -> CsvFile)
    ensures Order[0] == ("users.csv", "users") && Order[1..][1..] == Order[2..]
    ensures Order[1..][0] == ("priorities.csv", "priorities")
    ensures Order[2..][0] == ("db.csv", "todos") && Order[2..][1..] == []
    ensures AllMissing(Order[1..], files) <==> files("priorities.csv").Missing? && files("db.csv").Missing?
    ensures AllMissing(Order[2..], files) <==> files("db.csv").Missing?
    ensures AllMissing([], files)
  {
    assert Order[1..] == [("priorities.csv", "priorities"), ("db.csv", "todos")];
    assert Order[2..] == [("db.csv", "todos")];
  }

  /** `migrateAll`: users, then priorities, then todos. A rejected read ends
      the run with exit code 1. A missing file leaves an unhandled read-stream
      error behind, which ends the run with exit code 1 when the next file has
      to be read; exit code 0 when all three complete first. */
  method MigrateAll(files: string -> CsvFile, parseInt: string -> int, accepts: (string, nat) -> bool)
    returns (written: seq<Upload>, exitCode: int)
    ensures (written, exitCode == 0) == Migration(Order, files, parseInt, accepts)
    ensures exitCode == 0 || exitCode == 1
  {
    ghost var all := Migration(Order, files, parseInt, accepts);
    ghost var afterUsers := Migration(Order[1..], files, parseInt, accepts);
    ghost var afterPriorities := Migration(Order[2..], files, parseInt, accepts);
    MigrationHead(Order, files, parseInt, accepts);
    MigrationHead(Order[1..], files, parseInt, accepts);
    MigrationHead(Order[2..], files, parseInt, accepts);
    OrderSteps(files);
    var users := MigrateCollection(files("users.csv"), "users", parseInt, AcceptsIn(accepts, "users"));
    if users.Rejected? {
      return [], 1;
    }
    var strayError := files("users.csv").Missing?;
    if strayError && !files("priorities.csv").Missing? {
      return [], 1;
    }
    if !strayError {
      assert all == (users.value.written + afterUsers.0, afterUsers.1);
    }
    var priorities := MigrateCollection(files("priorities.csv"), "priorities", parseInt,
                                        AcceptsIn(accepts, "priorities"));
    if priorities.Rejected? {
      assert users.value.written + [] == users.value.written;
      return users.value.written, 1;
    }
    strayError := strayError || files("priorities.csv").Missing?;
    if strayError && !files("db.csv").Missing? {
      assert users.value.written + [] == users.value.written;
      return users.value.written + priorities.value.written, 1;
    }
    var todos := MigrateCollection(files("db.csv"), "todos", parseInt, AcceptsIn(accepts, "todos"));
    if todos.Rejected? {
      assert priorities.value.written + [] == priorities.value.written;
      return users.value.written + priorities.value.written, 1;
    }
    written := users.value.written + (priorities.value.written + todos.value.written);
    exitCode := 0;
    assert Migration([], files, parseInt, accepts) == ([], true);
    assert todos.value.written + [] == todos.value.written;
    assert [] + ([] + todos.value.written) == todos.value.written;
  }
}

=== FILE: priority_context.dfy ===
/** The browser's copy of the priority list. The initial load stores the list
    as fetched; each settled add appends the saved record and re-sorts the
    whole list by `level`; each settled delete filters by id. */
module PriorityContext {
  import opened Json
  import opened Http
  import opened Seqs
  import opened Records
  import opened LevelSort

  const PrioritiesPath: string := "/api/priorities"

  /** The request of the initial load. */
  function LoadPriorities(): (req: Request)
    ensures req.verb == Get && req.path == PrioritiesPath && req.body.None?
  {
    Request(Get, PrioritiesPath, None)
  }

  /** The sort key of the comparator `(a, b) => a.level - b.level`, where `-`
      converts each level to a number: a number is itself, `true` is 1,
      `false` and `null` are 0, and a text made of an optional minus sign and
      digits is its value. Any other level is taken as 0 (see README, "Left
      out"). */
  function Level(o: Object): (k: int)
    ensures "level" in o && o["level"].Num? ==> k == o["level"].n
    ensures forall n :: "level" in o && o["level"] == Str(Decimal(n)) ==> k == n
    ensures "level" in o && o["level"].Bool? ==> (k == 1 <==> o["level"].b) && (k == 0 <==> !o["level"].b)
    ensures "level" !in o || o["level"] == Null || o["level"] == Str("") ==> k == 0
  {
    if "level" !in o then 0
    else match o["level"]
      case Num(n) => n
      case Bool(b) => if b then 1 else 0
      case Null => 0
      case Str(s) => if DecimalNumber(s).Some? then DecimalNumber(s).value else 0
  }

  /** `addPriority(name, color, level)` with `freshId` for `crypto.randomUUID()`. */
  function AddPriority(freshId: string, name: string, color: string, level: int): (req: Request)
    ensures req.verb == Post && req.path == PrioritiesPath && req.body.Some?
    ensures req.body.value.Keys == {"id", "name", "color", "level"}
    ensures req.body.value["id"] == Str(freshId) && req.body.value["name"] == Str(name)
    ensures req.body.value["color"] == Str(color) && req.body.value["level"] == Num(level)
    ensures Level(req.body.value) == level
  {
    Request(Post, PrioritiesPath,
      Some(map["id" := Str(freshId), "name" := Str(name), "color" := Str(color), "level" := Num(level)]))
  }

  function DeletePriority(id: string): (req: Request)
    ensures req.verb == Delete && req.path == PrioritiesPath + "/" + id && req.body.None?
  {
    Request(Delete, PrioritiesPath + "/" + id, None)
  }

  /** `[...prev, saved].sort((a, b) => a.level - b.level)`: a permutation of
      the old list plus the saved record, in non-decreasing level order. */
  function AddSorted(prev: seq<Object>, saved: Object): (r: seq<Object>)
    ensures multiset(r) == multiset(prev) + multiset{saved}
    ensures Sorted(r, Level)
  {
    Sort(prev + [saved], Level)
  }

  /** Priorities of equal level keep their relative order through an add,
      the saved one after those already there. */
  lemma AddKeepsEqualLevelsInOrder(prev: seq<Object>, saved: Object, level: int)
    ensures Filter(AddSorted(prev, saved), KeyIs(Level, level))
         == Filter(prev, KeyIs(Level, level)) + Filter([saved], KeyIs(Level, level))
  {
    SortIsStable(prev + [saved], Level, level);
    FilterAppend(prev, [saved], KeyIs(Level, level));
  }

  /** A delete keeps a sorted list sorted. */
  lemma DeleteKeepsSorted(prev: seq<Object>, id: string)
    requires Sorted(prev, Level)
    ensures Sorted(WithoutId(prev, id), Level)
  {
    FilterKeepsSorted(prev, IdDiffers(id), Level);
  }

  class PriorityClient {
    /** The `priorities` state cell. */
    var priorities: seq<Object>

    constructor()
      ensures priorities == []
    {
      priorities := [];
    }

    /** The fetched list is stored in the order it arrives: it is not sorted. */
    method SettleLoad(reply: Settled<seq<Object>>)
      modifies this
      ensures priorities == (if reply.Resolved? then reply.value else old(priorities))
    {
      if reply.Resolved? {
        priorities := reply.value;
      }
    }

    method SettleAdd(reply: Settled<Object>)
      modifies this
      ensures reply.Resolved? ==> priorities == AddSorted(old(priorities), reply.value)
      ensures reply.Rejected? ==> priorities == old(priorities)
    {
      if reply.Resolved? {
        priorities := AddSorted(priorities, reply.value);
      }
    }

    /** Every priority with the id goes, whatever the status of the response. */
    method SettleDelete(id: string, reply: Settled<int>)
      modifies this
      ensures reply.Resolved? ==> priorities == WithoutId(old(priorities), id)
      ensures reply.Rejected? ==> priorities == old(priorities)
    {
      if reply.Resolved? {
        priorities := WithoutId(priorities, id);
      }
    }
  }
}

=== FILE: records.dfy ===
/** The list operations on `id`-keyed records that the server handlers and
    the three client contexts share: find by id, replace by id, drop by id. */
module Records {
  import opened Json
  import opened Seqs

  /** The test `r => r.id !== id` used by every delete. */
  function IdDiffers(id: string): Object -> bool {
    o => !HasId(o, id)
  }

  /** `list.filter(r => r.id !== id)`. */
  function WithoutId(s: seq<Object>, id: string): (r: seq<Object>)
    ensures forall i :: 0 <= i < |r| ==> !HasId(r[i], id) && r[i] in s
    ensures forall i :: 0 <= i < |s| && !HasId(s[i], id) ==> s[i] in r
    ensures SubsequenceOf(r, s)
    ensures forall x :: multiset(r)[x] == if HasId(x, id) then 0 else multiset(s)[x]
  {
    FilterIsSubsequence(s, IdDiffers(id));
    FilterMembers(s, IdDiffers(id));
    FilterCounts(s, IdDiffers(id));
    Filter(s, IdDiffers(id))
  }

  /** Deleting an id twice leaves the same list as deleting it once. */
  lemma WithoutIdIdempotent(s: seq<Object>, id: string)
    ensures WithoutId(WithoutId(s, id), id) == WithoutId(s, id)
  {
    FilterIdempotent(s, IdDiffers(id));
  }

  /** Deleting an id no record carries changes nothing. */
  lemma WithoutAbsentId(s: seq<Object>, id: string)
    requires forall i :: 0 <= i < |s| ==> !HasId(s[i], id)
    ensures WithoutId(s, id) == s
  {
    FilterKeepsAll(s, IdDiffers(id));
  }

  /** `list.findIndex(r => r.id === id)`, with `-1` as `None`: the first
      position holding the id. */
  function FindIndex(s: seq<Object>, id: string): (r: Option<nat>)
    ensures r.Some? ==> r.value < |s| && HasId(s[r.value], id)
    ensures r.Some? ==> forall j :: 0 <= j < r.value ==> !HasId(s[j], id)
    ensures r.None? <==> forall j :: 0 <= j < |s| ==> !HasId(s[j], id)
  {
    if s == [] then None
    else if HasId(s[0], id) then Some(0)
    else match FindIndex(s[1..], id)
      case None => None
      case Some(i) => Some(i + 1)
  }

  /** `list.find(r => r.id === id)`: the first record holding the id. */
  function FindById(s: seq<Object>, id: string): (r: Option<Object>)
    ensures r.None? <==> forall j :: 0 <= j < |s| ==> !HasId(s[j], id)
    ensures r.Some? ==> r.value in s && HasId(r.value, id)
    ensures r.Some? ==> FindIndex(s, id).Some? && r.value == s[FindIndex(s, id).value]
  {
    match FindIndex(s, id)
    case None => None
    case Some(i) => Some(s[i])
  }

  /** `list.map(r => r.id === id ? u : r)`: every record holding the id is
      replaced by `u`; the others stay where they are. */
  function ReplaceById(s: seq<Object>, id: string, u: Object): (r: seq<Object>)
    ensures |r| == |s|
    ensures forall i :: 0 <= i < |s| && HasId(s[i], id) ==> r[i] == u
    ensures forall i :: 0 <= i < |s| && !HasId(s[i], id) ==> r[i] == s[i]
  {
    if s == [] then []
    else [if HasId(s[0], id) then u else s[0]] + ReplaceById(s[1..], id, u)
  }
}

=== FILE: seqs.dfy ===
/** `Array.prototype.filter` and the facts about it that the rest of the model
    relies on. */
module Seqs {

  /** `s.filter(p)`: the elements of `s` that satisfy `p`, in their order. */
  function Filter<T>(s: seq<T>, p: T -> bool): (r: seq<T>)
    ensures |r| <= |s|
  {
    if s == [] then [] else (if p(s[0]) then [s[0]] else []) + Filter(s[1..], p)
  }

  /** The filtered list holds exactly the elements that pass the test. */
  lemma {:induction false} FilterMembers<T>(s: seq<T>, p: T -> bool)
    ensures forall i :: 0 <= i < |Filter(s, p)| ==> Filter(s, p)[i] in s && p(Filter(s, p)[i])
    ensures forall i :: 0 <= i < |s| && p(s[i]) ==> s[i] in Filter(s, p)
  {
    if s != [] {
      FilterMembers(s[1..], p);
      var head := if p(s[0]) then [s[0]] else [];
      var rest := Filter(s[1..], p);
      assert Filter(s, p) == head + rest;
      forall i | 0 <= i < |head + rest| ensures (head + rest)[i] in s && p((head + rest)[i]) {
        if i >= |head| {
          assert (head + rest)[i] == rest[i - |head|];
          assert rest[i - |head|] in s[1..];
        }
      }
      forall i | 0 <= i < |s| && p(s[i]) ensures s[i] in head + rest {
        if i > 0 {
          assert s[i] == s[1..][i - 1];
        }
      }
    }
  }

  /** The filtered list holds each passing element as often as `s` does, and
      no other element. */
  lemma {:induction false} FilterCounts<T>(s: seq<T>, p: T -> bool)
    ensures forall x :: multiset(Filter(s, p))[x] == if p(x) then multiset(s)[x] else 0
  {
    if s != [] {
      FilterCounts(s[1..], p);
      var head := if p(s[0]) then [s[0]] else [];
      assert Filter(s, p) == head + Filter(s[1..], p);
      assert s == [s[0]] + s[1..];
    }
  }

  /** `r` is obtained from `s` by deleting elements: an order-preserving
      subsequence. */
  ghost predicate SubsequenceOf<T>(r: seq<T>, s: seq<T>)
    decreases |s|
  {
    r == [] ||
    (s != [] && ((r[0] == s[0] && SubsequenceOf(r[1..], s[1..])) || SubsequenceOf(r, s[1..])))
  }

  lemma {:induction false} FilterIsSubsequence<T>(s: seq<T>, p: T -> bool)
    ensures SubsequenceOf(Filter(s, p), s)
  {
    if s != [] {
      FilterIsSubsequence(s[1..], p);
      var r := Filter(s, p);
      if p(s[0]) {
        assert r[0] == s[0] && r[1..] == Filter(s[1..], p);
      } else {
        assert r == Filter(s[1..], p);
      }
    }
  }

  lemma AppendAssociative<T>(a: seq<T>, b: seq<T>, c: seq<T>)
    ensures a + (b + c) == (a + b) + c
  {
  }

  lemma {:induction false} FilterAppend<T>(a: seq<T>, b: seq<T>, p: T -> bool)
    ensures Filter(a + b, p) == Filter(a, p) + Filter(b, p)
  {
    if a == [] {
      assert a + b == b;
    } else {
      var head := if p(a[0]) then [a[0]] else [];
      assert (a + b)[0] == a[0] && (a + b)[1..] == a[1..] + b;
      FilterAppend(a[1..], b, p);
      assert Filter(a + b, p) == head + Filter(a[1..] + b, p);
      AppendAssociative(head, Filter(a[1..], p), Filter(b, p));
    }
  }

  /** Filtering twice with the same test keeps what filtering once keeps. */
  lemma {:induction false} FilterIdempotent<T>(s: seq<T>, p: T -> bool)
    ensures Filter(Filter(s, p), p) == Filter(s, p)
  {
    if s != [] {
      var head := if p(s[0]) then [s[0]] else [];
      FilterAppend(head, Filter(s[1..], p), p);
      FilterIdempotent(s[1..], p);
      assert Filter(head, p) == head;
    }
  }

  lemma {:induction false} FilterKeepsAll<T>(s: seq<T>, p: T -> bool)
    requires forall i :: 0 <= i < |s| ==> p(s[i])
    ensures Filter(s, p) == s
  {
    if s != [] {
      FilterKeepsAll(s[1..], p);
    }
  }

  lemma {:induction false} FilterDropsAll<T>(s: seq<T>, p: T -> bool)
    requires forall i :: 0 <= i < |s| ==> !p(s[i])
    ensures Filter(s, p) == []
  {
    if s != [] {
      FilterDropsAll(s[1..], p);
    }
  }
}

=== FILE: sync.dfy ===
/** How the browser's list and the server's file meet: what a request built by
    the todo context turns into on the server, and what the client keeps of the
    reply. */
module Sync {
  import opened Json
  import opened Http
  import opened Records
  import opened TodoServer
  import TodoContext

  /** The record the server stores and returns for the body `addTodo` sends:
      the id, the text and `completed: false`. The user the client attached is
      dropped, since the server keeps only its own columns. */
  lemma {:induction false} AddedTodoLosesUser(freshId: string, text: string, userId: Option<string>)
    ensures var body := TodoContext.AddTodo(freshId, text, userId).body.value;
      && NewTodo(body) == map["id" := Str(freshId), "text" := Str(text), "completed" := Bool(false)]
      && "userId" !in NewTodo(body)
  {
    var body := TodoContext.AddTodo(freshId, text, userId).body.value;
    var expected: Object := map["id" := Str(freshId), "text" := Str(text), "completed" := Bool(false)];
    assert NewTodo(body).Keys == Columns == expected.Keys;
    forall k | k in expected ensures NewTodo(body)[k] == expected[k] {
      assert k == "id" || k == "text" || k == "completed";
    }
  }

  /** A todo added through the client shows up last when the list is loaded
      again, provided its id or its text is non-empty (a row whose id and text
      are both empty is skipped on reading). */
  lemma AddThenLoad(file: seq<Row>, freshId: string, text: string, userId: Option<string>)
    requires Canonical(file)
    requires freshId != "" || text != ""
    ensures var body := TodoContext.AddTodo(freshId, text, userId).body.value;
      ParseTable(Apply(file, HandlePost(ParseTable(file), body)))
        == ParseTable(file) + [map["id" := Str(freshId), "text" := Str(text), "completed" := Bool(false)]]
  {
    var body := TodoContext.AddTodo(freshId, text, userId).body.value;
    AddedTodoLosesUser(freshId, text, userId);
    PostThenGet(file, body);
  }

  /** `updateTodoUser` on a stored todo: the server answers with the user set,
      so the client shows it, but the file keeps no `userId`, so the next load
      shows the todo unassigned again. */
  lemma UserUpdateNotPersisted(file: seq<Row>, id: string, userId: string)
    requires exists i :: 0 <= i < |ParseTable(file)| && HasId(ParseTable(file)[i], id)
    ensures var o := HandlePut(ParseTable(file), id, map["userId" := Str(userId)]);
      var reread := ParseTable(Apply(file, o));
      && o.response.status == 200
      && o.response.body.fields["userId"] == Str(userId)
      && forall j :: 0 <= j < |reread| ==> !FieldTruthy(reread[j], "userId")
  {
    var o := HandlePut(ParseTable(file), id, map["userId" := Str(userId)]);
    assert o.write.Some?;
    OnlyColumnsPersisted(o.write.value);
  }

  /** A 404 reply to an update replaces the local entry by the error object.
      Afterwards no entry carries the id, so the client sends nothing more for
      it and a delete of the id leaves the list as it is: the error object
      stays in the list until the next full load. */
  lemma {:induction false} NotFoundStrandsEntry(prev: seq<Object>, id: string)
    requires exists i :: 0 <= i < |prev| && HasId(prev[i], id)
    ensures var next := ReplaceById(prev, id, NotFound);
      && NotFound in next
      && FindById(next, id).None?
      && WithoutId(next, id) == next
  {
    var i :| 0 <= i < |prev| && HasId(prev[i], id);
    var next := ReplaceById(prev, id, NotFound);
    assert next[i] == NotFound;
    forall j | 0 <= j < |next| ensures !HasId(next[j], id) {
      if HasId(prev[j], id) {
        assert next[j] == NotFound;
        assert "id" !in NotFound;
      }
    }
    WithoutAbsentId(next, id);
  }

  /** Once the error object has replaced the entry, toggling the id,
      assigning it a user or editing its text sends no request. */
  lemma StrandedEntrySendsNothing(client: TodoContext.TodoClient, prev: seq<Object>, id: string,
                                  userId: string, text: string)
    requires exists i :: 0 <= i < |prev| && HasId(prev[i], id)
    requires client.todos == ReplaceById(prev, id, NotFound)
    ensures client.ToggleTodo(id).None?
    ensures client.UpdateTodoUser(id, userId).None?
    ensures client.UpdateTodoText(id, text).None?
  {
    NotFoundStrandsEntry(prev, id);
  }
}

=== FILE: todo_context.dfy ===
/** The browser's copy of the todo list. The list lives in one state cell.
    Each action sends one request built from the current list, and when the
    request settles the cell is updated from the list as it is then. The HTTP
    status is never looked at, so an error body is treated like a record. */
module TodoContext {
  import opened Json
  import opened Http
  import opened Records

  const TodosPath: string := "/api/todos"

  function TodoPath(id: string): string {
    TodosPath + "/" + id
  }

  /** The request of the initial load. */
  function LoadTodos(): (req: Request)
    ensures req.verb == Get && req.path == TodosPath && req.body.None?
  {
    Request(Get, TodosPath, None)
  }

  /** `addTodo(text, userId)` with `freshId` for `crypto.randomUUID()`: the
      POST it sends, a new incomplete todo whose user is `userId || ''`. */
  function AddTodo(freshId: string, text: string, userId: Option<string>): (req: Request)
    ensures req.verb == Post && req.path == TodosPath && req.body.Some?
    ensures req.body.value.Keys == {"id", "text", "completed", "userId"}
    ensures req.body.value["id"] == Str(freshId) && req.body.value["text"] == Str(text)
    ensures req.body.value["completed"] == Bool(false)
    ensures req.body.value["userId"] == Str(if userId.Some? then userId.value else "")
  {
    var user := match userId case Some(u) => u case None => "";
    Request(Post, TodosPath, Some(map["id" := Str(freshId), "text" := Str(text),
                                      "completed" := Bool(false), "userId" := Str(user)]))
  }

  /** `deleteTodo(id)`: the DELETE it sends. */
  function DeleteTodo(id: string): (req: Request)
    ensures req.verb == Delete && req.path == TodoPath(id) && req.body.None?
  {
    Request(Delete, TodoPath(id), None)
  }

  class TodoClient {
    /** The `todos` state cell. */
    var todos: seq<Object>

    constructor()
      ensures todos == []
    {
      todos := [];
    }

    /** The PUT sent for `id` with the given body, or none when no local todo
        has the id. */
    function PutIfPresent(id: string, patch: Object): (req: Option<Request>)
      reads this
    {
      match FindById(todos, id)
      case None => None
      case Some(_) => Some(Request(Put, TodoPath(id), Some(patch)))
    }

    /** `toggleTodo(id)`: nothing when the id is not in the local list;
        otherwise a PUT whose `completed` is the negation of the local value
        of the first todo with the id. */
    function ToggleTodo(id: string): (req: Option<Request>)
      reads this
      ensures req.None? <==> forall i :: 0 <= i < |todos| ==> !HasId(todos[i], id)
      ensures req.Some? ==>
        var first := todos[FindIndex(todos, id).value];
        req.value == Request(Put, TodoPath(id), Some(map["completed" := Bool(!FieldTruthy(first, "completed"))]))
    {
      match FindById(todos, id)
      case None => None
      case Some(todo) =>
        Some(Request(Put, TodoPath(id), Some(map["completed" := Bool(!FieldTruthy(todo, "completed"))])))
    }

    /** `updateTodoUser(id, userId)`: nothing when the id is not in the local
        list; otherwise a PUT carrying only the new `userId`. */
    function UpdateTodoUser(id: string, userId: string): (req: Option<Request>)
      reads this
      ensures req.None? <==> forall i :: 0 <= i < |todos| ==> !HasId(todos[i], id)
      ensures req.Some? ==> req.value == Request(Put, TodoPath(id), Some(map["userId" := Str(userId)]))
    {
      PutIfPresent(id, map["userId" := Str(userId)])
    }

    /** `updateTodoText(id, text)`: nothing when the id is not in the local
        list; otherwise a PUT carrying only the new `text`. */
    function UpdateTodoText(id: string, text: string): (req: Option<Request>)
      reads this
      ensures req.None? <==> forall i :: 0 <= i < |todos| ==> !HasId(todos[i], id)
      ensures req.Some? ==> req.value == Request(Put, TodoPath(id), Some(map["text" := Str(text)]))
    {
      PutIfPresent(id, map["text" := Str(text)])
    }

    /** The initial load settles: the fetched list replaces the cell verbatim;
        a rejection only logs. */
    method SettleLoad(reply: Settled<seq<Object>>)
      modifies this
      ensures todos == (if reply.Resolved? then reply.value else old(todos))
    {
      if reply.Resolved? {
        todos := reply.value;
      }
    }

    /** The POST of `addTodo` settles: the saved record goes at the end. */
    method SettleAdd(reply: Settled<Object>)
      modifies this
      ensures reply.Resolved? ==> todos == old(todos) + [reply.value]
      ensures reply.Rejected? ==> todos == old(todos)
    {
      if reply.Resolved? {
        todos := todos + [reply.value];
      }
    }

    /** The PUT of `toggleTodo`, `updateTodoUser` or `updateTodoText` settles:
        every todo with the id becomes the response body, whatever the status. */
    method SettleUpdate(id: string, reply: Settled<Object>)
      modifies this
      ensures reply.Resolved? ==> todos == ReplaceById(old(todos), id, reply.value)
      ensures reply.Rejected? ==> todos == old(todos)
    {
      if reply.Resolved? {
        todos := ReplaceById(todos, id, reply.value);
      }
    }

    /** The DELETE settles: every todo with the id goes, whatever the status
        (`status`) of the response. */
    method SettleDelete(id: string, reply: Settled<int>)
      modifies this
      ensures reply.Resolved? ==> todos == WithoutId(old(todos), id)
      ensures reply.Rejected? ==> todos == old(todos)
    {
      if reply.Resolved? {
        todos := WithoutId(todos, id);
      }
    }
  }
}

=== FILE: todo_list.dfy ===
/** The logic of the todo list view: the user filter over the todos and the
    inline text editor (`editingId`, `editText`). */
module TodoList {
  import opened Json
  import opened Seqs

  // -------------------------------------------------------------- trimming

  /** The characters `String.prototype.trim` removes from both ends: white
      space (tab, vertical tab, form feed, space, no-break space, byte order
      mark and every space separator) and line terminators. */
  const Blanks: seq<char> := [
    '\t', '\n', '\U{000B}', '\U{000C}', '\r', ' ', '\U{00A0}', '\U{1680}',
    '\U{2000}', '\U{2001}', '\U{2002}', '\U{2003}', '\U{2004}', '\U{2005}',
    '\U{2006}', '\U{2007}', '\U{2008}', '\U{2009}', '\U{200A}',
    '\U{2028}', '\U{2029}', '\U{202F}', '\U{205F}', '\U{3000}', '\U{FEFF}'
  ]

  predicate IsTrimmable(c: char) {
    BlankFrom(c, 0)
  }

  /** `c` is one of `Blanks[k..]`. */
  predicate BlankFrom(c: char, k: nat)
    decreases |Blanks| - k
  {
    k < |Blanks| && (Blanks[k] == c || BlankFrom(c, k + 1))
  }

  function TrimStart(s: string): (r: string)
    ensures |r| <= |s| && r == s[|s| - |r|..]
    ensures r == [] || !IsTrimmable(r[0])
    ensures forall i :: 0 <= i < |s| - |r| ==> IsTrimmable(s[i])
    ensures r == [] <==> AllTrimmable(s)
  {
    if s != [] && IsTrimmable(s[0]) then TrimStart(s[1..]) else s
  }

  function TrimEnd(s: string): (r: string)
    ensures |r| <= |s| && r == s[..|r|]
    ensures r == [] || !IsTrimmable(r[|r| - 1])
    ensures forall i :: |r| <= i < |s| ==> IsTrimmable(s[i])
    ensures r == [] <==> AllTrimmable(s)
  {
    if s != [] && IsTrimmable(s[|s| - 1]) then TrimEnd(s[..|s| - 1]) else s
  }

  /** `s.trim()`: the text without its leading and trailing blanks; empty
      exactly when `s` is all blank, and otherwise neither starting nor ending
      with a blank. */
  function Trim(s: string): (r: string)
    ensures r == [] <==> AllTrimmable(s)
    ensures r != [] ==> !IsTrimmable(r[0]) && !IsTrimmable(r[|r| - 1])
  {
    TrimEnd(TrimStart(s))
  }

  /** Only blanks are cut: the trimmed text sits between a blank prefix and a
      blank suffix of the original. */
  lemma TrimCutsOnlyBlanks(s: string)
    ensures exists pre, post :: s == pre + Trim(s) + post && AllTrimmable(pre) && AllTrimmable(post)
  {
    var t := TrimStart(s);
    TrimmedMiddle(s, t, TrimEnd(t));
  }

  /** `r` is what is left of `s` once leading and then trailing blanks are
      cut, so blanks surround it on both sides. */
  lemma TrimmedMiddle(s: string, t: string, r: string)
    requires |t| <= |s| && t == s[|s| - |t|..]
    requires forall i :: 0 <= i < |s| - |t| ==> IsTrimmable(s[i])
    requires |r| <= |t| && r == t[..|r|]
    requires forall i :: |r| <= i < |t| ==> IsTrimmable(t[i])
    ensures exists pre, post :: s == pre + r + post && AllTrimmable(pre) && AllTrimmable(post)
  {
    var lo := |s| - |t|;
    var pre, post := s[..lo], s[lo + |r|..];
    assert AllTrimmable(pre);
    assert AllTrimmable(post) by {
      forall i | 0 <= i < |post| ensures IsTrimmable(post[i]) {
        assert post[i] == t[|r| + i];
      }
    }
    assert r == s[lo..lo + |r|];
    SplitInThree(s, lo, lo + |r|);
  }

  /** Trimming a string that already has no blank at either end returns it
      unchanged; so trimming twice is trimming once. */
  lemma TrimIdempotent(s: string)
    ensures Trim(Trim(s)) == Trim(s)
  {
    var r := Trim(s);
    assert TrimStart(r) == r;
    assert TrimEnd(r) == r;
  }

  lemma SplitInThree(s: string, i: nat, j: nat)
    requires i <= j <= |s|
    ensures s == s[..i] + s[i..j] + s[j..]
  {
  }

  predicate AllTrimmable(s: string) {
    forall i :: 0 <= i < |s| ==> IsTrimmable(s[i])
  }

  // ------------------------------------------------------------- filtering

  /** The test applied to each todo for the selected filter value. A todo
      assigned to a user (a non-empty string `userId`) is never shown under
      `'unassigned'`, and one shown under a user is shown under no other. */
  function Shows(filterUserId: string): (show: Object -> bool)
    ensures filterUserId == "all" ==> forall t :: show(t)
    ensures filterUserId == "unassigned" ==> forall t :: show(t) ==> !FieldTruthy(t, "userId")
    ensures filterUserId == "unassigned" ==> forall t :: !FieldTruthy(t, "userId") ==> show(t)
    ensures filterUserId != "all" && filterUserId != "unassigned" ==>
      forall t :: show(t) ==> HasUser(t, filterUserId)
    ensures filterUserId != "all" && filterUserId != "unassigned" ==>
      forall t :: HasUser(t, filterUserId) ==> show(t)
  {
    todo =>
      if filterUserId == "all" then true
      else if filterUserId == "unassigned" then !FieldTruthy(todo, "userId")
      else HasUser(todo, filterUserId)
  }

  /** `todo.userId === userId` for a string `userId`. */
  predicate HasUser(todo: Object, userId: string) {
    "userId" in todo && todo["userId"] == Str(userId)
  }

  /** The user filters and `'unassigned'` never share a todo unless the user
      id is the empty string, and two different user filters never share one. */
  lemma ShowsDisjoint(t: Object, u: string, v: string)
    requires u !in {"all", "unassigned", ""} && v != "all" && v != u
    ensures Shows(u)(t) ==> !Shows(v)(t)
  {
  }

  /** `filteredTodos`: the whole list for `'all'`, the todos whose `userId` is
      empty or absent for `'unassigned'`, and otherwise the todos assigned to
      exactly that user id; always an order-preserving subsequence. */
  function FilterTodos(todos: seq<Object>, filterUserId: string): (r: seq<Object>)
    ensures SubsequenceOf(r, todos)
    ensures filterUserId == "all" ==> r == todos
    ensures filterUserId == "unassigned" ==>
      && (forall i :: 0 <= i < |r| ==> !FieldTruthy(r[i], "userId"))
      && (forall i :: 0 <= i < |todos| && !FieldTruthy(todos[i], "userId") ==> todos[i] in r)
      && (forall x :: multiset(r)[x] == if FieldTruthy(x, "userId") then 0 else multiset(todos)[x])
    ensures filterUserId != "all" && filterUserId != "unassigned" ==>
      && (forall i :: 0 <= i < |r| ==> HasUser(r[i], filterUserId))
      && (forall i :: 0 <= i < |todos| && HasUser(todos[i], filterUserId) ==> todos[i] in r)
      && (forall x :: multiset(r)[x] == if HasUser(x, filterUserId) then multiset(todos)[x] else 0)
  {
    FilterIsSubsequence(todos, Shows(filterUserId));
    FilterMembers(todos, Shows(filterUserId));
    FilterCounts(todos, Shows(filterUserId));
    if filterUserId == "all" then
      FilterKeepsAll(todos, Shows(filterUserId));
      Filter(todos, Shows(filterUserId))
    else
      Filter(todos, Shows(filterUserId))
  }

  // --------------------------------------------------------------- editing

  /** A call `updateTodoText(id, text)` made by the editor. */
  datatype TextUpdate = TextUpdate(id: string, text: string)

  /** The editor's two state cells; `None` is `null`. */
  datatype Edit = Edit(editingId: Option<string>, editText: string)

  /** `saveEdit`: when an edit is active (a non-empty `editingId`) and the
      trimmed text is non-empty, send the trimmed text and close the editor;
      otherwise do nothing. The text sent never starts or ends with blanks. */
  function Save(e: Edit): (r: (Edit, Option<TextUpdate>))
    ensures r.1.Some? <==> e.editingId.Some? && e.editingId.value != "" && Trim(e.editText) != ""
    ensures r.1.Some? ==>
      r.1.value == TextUpdate(e.editingId.value, Trim(e.editText)) && r.0 == Edit(None, e.editText)
    ensures r.1.Some? ==> var t := r.1.value.text;
                          t != "" && !IsTrimmable(t[0]) && !IsTrimmable(t[|t| - 1])
    ensures r.1.None? ==> r.0 == e
  {
    if e.editingId.Some? && e.editingId.value != "" && Trim(e.editText) != "" then
      (Edit(None, e.editText), Some(TextUpdate(e.editingId.value, Trim(e.editText))))
    else
      (e, None)
  }

  /** `handleKeyDown`: Enter saves exactly as `saveEdit` does, Escape closes
      the editor without any update, any other key changes nothing. */
  function KeyDown(e: Edit, key: string): (r: (Edit, Option<TextUpdate>))
    ensures key == "Enter" ==> r == Save(e)
    ensures key == "Escape" ==> r == (Edit(None, e.editText), None)
    ensures key != "Enter" && key != "Escape" ==> r == (e, None)
  {
    if key == "Enter" then Save(e)
    else if key == "Escape" then (Edit(None, e.editText), None)
    else (e, None)
  }

  class TodoListView {
    var filterUserId: string
    var editingId: Option<string>
    var editText: string

    constructor()
      ensures filterUserId == "all" && editingId == None && editText == ""
    {
      filterUserId := "all";
      editingId := None;
      editText := "";
    }

    /** The filter drop-down changes. */
    method SelectFilter(value: string)
      modifies this
      ensures filterUserId == value && editingId == old(editingId) && editText == old(editText)
    {
      filterUserId := value;
    }

    /** `startEditing(todo)`: the editor opens on the todo's id and text. */
    method StartEditing(id: string, text: string)
      modifies this
      ensures editingId == Some(id) && editText == text && filterUserId == old(filterUserId)
    {
      editingId := Some(id);
      editText := text;
    }

    /** Typing in the editor. */
    method ChangeText(value: string)
      modifies this
      ensures editText == value && editingId == old(editingId) && filterUserId == old(filterUserId)
    {
      editText := value;
    }

    /** `saveEdit`, also run when the editor loses focus. */
    method SaveEdit() returns (call: Option<TextUpdate>)
      modifies this
      ensures (Edit(editingId, editText), call) == Save(old(Edit(editingId, editText)))
      ensures filterUserId == old(filterUserId)
    {
      ghost var before := Edit(editingId, editText);
      var trimmed := Trim(editText);
      if editingId.Some? && editingId.value != "" && trimmed != "" {
        call := Some(TextUpdate(editingId.value, trimmed));
        editingId := None;
        assert Save(before) == (Edit(editingId, editText), call);
      } else {
        call := None;
        assert Save(before) == (before, None);
      }
    }

    method HandleKeyDown(key: string) returns (call: Option<TextUpdate>)
      modifies this
      ensures (Edit(editingId, editText), call) == KeyDown(old(Edit(editingId, editText)), key)
      ensures filterUserId == old(filterUserId)
    {
      if key == "Enter" {
        call := SaveEdit();
      } else if key == "Escape" {
        editingId := None;
        call := None;
      } else {
        call := None;
      }
    }
  }
}

=== FILE: todo_server.dfy ===
/** The Express server that keeps the todo table in db.csv. Every handler reads
    the whole file. POST and DELETE then write the whole changed list back, and
    so does PUT unless it answers 404; GET writes nothing. The file is the only
    state: a sequence of rows, each a map from
    column name to cell text, as the CSV parser hands them over. */
module TodoServer {
  import opened Json
  import opened Http
  import opened Seqs
  import opened Records

  /** One CSV row below the header: column name to cell text. */
  type Row = map<string, string>

  /** The only columns the server ever writes. */
  const Columns: set<string> := {"id", "text", "completed"}

  /** The body of every 404 answer to PUT. */
  const NotFound: Object := map["error" := Str("Todo not found")]

  /** The body of every answer to DELETE. */
  const Success: Object := map["success" := Bool(true)]

  // ---------------------------------------------------------------- reading

  /** The test `!data.id && !data.text` that skips a row, negated: the row
      as the parser emits it, every cell a string, and a truthy id or text.
      A row is kept exactly when its id or its text is non-empty. */
  function KeepRow(row: Row): (keep: bool)
    ensures keep <==> ("id" in row && row["id"] != "") || ("text" in row && row["text"] != "")
  {
    var data: Object := map k | k in row :: Str(row[k]);
    FieldTruthy(data, "id") || FieldTruthy(data, "text")
  }

  /** A kept row as a record: every cell becomes a string field, and then
      `completed` becomes the boolean `completed === 'true'`, which is false
      for any other text and is added even when the column is missing. */
  function ParseRow(row: Row): (o: Object)
    ensures o.Keys == row.Keys + {"completed"}
    ensures o["completed"] == Bool(true) <==> "completed" in row && row["completed"] == "true"
    ensures o["completed"].Bool?
    ensures forall k :: k in row && k != "completed" ==> o[k] == Str(row[k])
  {
    (map k | k in row :: Str(row[k]))["completed" := Bool("completed" in row && row["completed"] == "true")]
  }

  /** The list `readTodos` resolves with for the rows of the file. */
  function ParseTable(rows: seq<Row>): (todos: seq<Object>)
    ensures |todos| <= |rows|
  {
    if rows == [] then []
    else (if KeepRow(rows[0]) then [ParseRow(rows[0])] else []) + ParseTable(rows[1..])
  }

  lemma {:induction false} ParseTableAppend(a: seq<Row>, b: seq<Row>)
    ensures ParseTable(a + b) == ParseTable(a) + ParseTable(b)
  {
    if a == [] {
      assert a + b == b;
    } else {
      assert (a + b)[0] == a[0] && (a + b)[1..] == a[1..] + b;
      ParseTableAppend(a[1..], b);
      var head := if KeepRow(a[0]) then [ParseRow(a[0])] else [];
      assert ParseTable(a + b) == head + ParseTable(a[1..] + b);
      assert ParseTable(a) == head + ParseTable(a[1..]);
      AppendAssociative(head, ParseTable(a[1..]), ParseTable(b));
    }
  }

  /** Reading keeps a row exactly when its id or its text is non-empty, and
      keeps the kept rows in file order. */
  lemma ReadKeepsNonBlankRowsInOrder(before: seq<Row>, row: Row, after: seq<Row>)
    ensures ParseTable(before + [row] + after)
         == ParseTable(before) + (if KeepRow(row) then [ParseRow(row)] else []) + ParseTable(after)
  {
    ParseTableAppend(before + [row], after);
    ParseTableAppend(before, [row]);
  }

  // ---------------------------------------------------------------- writing

  /** The text the CSV writer puts in the cell for `o[key]`: empty for
      `undefined` and `null`, `String(value)` otherwise. A number is written
      as its decimal digits, which is what `String` prints below 1e21 in
      magnitude. */
  function Cell(o: Object, key: string): (c: string)
    ensures key !in o || o[key].Null? ==> c == ""
    ensures key in o && o[key].Str? ==> c == o[key].s
    ensures key in o && o[key].Bool? ==> (c == "true" <==> o[key].b) && (c == "false" <==> !o[key].b)
    ensures key in o && o[key].Num? ==> DecimalNumber(c) == Some(o[key].n)
  {
    if key !in o then ""
    else match o[key]
      case Null => ""
      case Bool(b) => if b then "true" else "false"
      case Num(n) => Decimal(n)
      case Str(s) => s
  }

  /** The row written for a record: the three columns and nothing else. */
  function ProjectRow(o: Object): (row: Row)
    ensures row.Keys == Columns
    ensures forall c :: c in Columns ==> row[c] == Cell(o, c)
  {
    map["id" := Cell(o, "id"), "text" := Cell(o, "text"), "completed" := Cell(o, "completed")]
  }

  /** The rows `writeTodos` leaves in the file for a list of records. */
  function Serialize(todos: seq<Object>): (rows: seq<Row>)
    ensures |rows| == |todos|
    ensures forall i :: 0 <= i < |rows| ==> rows[i].Keys == Columns
    ensures forall i :: 0 <= i < |rows| ==> rows[i] == ProjectRow(todos[i])
  {
    if todos == [] then [] else [ProjectRow(todos[0])] + Serialize(todos[1..])
  }

  lemma {:induction false} SerializeAppend(a: seq<Object>, b: seq<Object>)
    ensures Serialize(a + b) == Serialize(a) + Serialize(b)
  {
    if a == [] {
      assert a + b == b;
    } else {
      assert (a + b)[0] == a[0] && (a + b)[1..] == a[1..] + b;
      SerializeAppend(a[1..], b);
    }
  }

  // ------------------------------------------------------- read after write

  /** A file whose every row has exactly the server's columns, as every file
      the server itself has written. */
  ghost predicate Canonical(rows: seq<Row>) {
    forall i :: 0 <= i < |rows| ==> rows[i].Keys == Columns
  }

  /** A record exactly as reading a canonical file yields it. */
  ghost predicate WellFormed(o: Object) {
    && o.Keys == Columns
    && o["id"].Str? && o["text"].Str? && o["completed"].Bool?
    && (o["id"].s != "" || o["text"].s != "")
  }

  /** A record as reading any file yields it: `completed` is a boolean, every
      other field a string, and the id or the text is non-empty. */
  ghost predicate Parsed(o: Object) {
    && "completed" in o && o["completed"].Bool?
    && (forall k :: k in o && k != "completed" ==> o[k].Str?)
    && (("id" in o && o["id"] != Str("")) || ("text" in o && o["text"] != Str("")))
  }

  ghost predicate AllParsed(todos: seq<Object>) {
    forall i :: 0 <= i < |todos| ==> Parsed(todos[i])
  }

  lemma {:induction false} ParseTableIsParsed(rows: seq<Row>)
    ensures AllParsed(ParseTable(rows))
    ensures Canonical(rows) ==> forall i :: 0 <= i < |ParseTable(rows)| ==> WellFormed(ParseTable(rows)[i])
  {
    if rows != [] {
      ParseTableIsParsed(rows[1..]);
      var head := if KeepRow(rows[0]) then [ParseRow(rows[0])] else [];
      assert ParseTable(rows) == head + ParseTable(rows[1..]);
    }
  }

  /** One well-formed record written as a row and read back is unchanged. */
  lemma ReadBackRecord(o: Object)
    requires WellFormed(o)
    ensures KeepRow(ProjectRow(o)) && ParseRow(ProjectRow(o)) == o
  {
    var row := ProjectRow(o);
    assert row["id"] == o["id"].s && row["text"] == o["text"].s;
    assert row["completed"] == (if o["completed"].b then "true" else "false");
    var back := ParseRow(row);
    assert back.Keys == o.Keys;
    forall k | k in o ensures back[k] == o[k] {
      assert k == "id" || k == "text" || k == "completed";
    }
  }

  /** Writing well-formed records and reading them back gives them back. */
  lemma {:induction false} WriteThenRead(todos: seq<Object>)
    requires forall i :: 0 <= i < |todos| ==> WellFormed(todos[i])
    ensures ParseTable(Serialize(todos)) == todos
  {
    if todos != [] {
      var o := todos[0];
      var row := ProjectRow(o);
      ReadBackRecord(o);
      WriteThenRead(todos[1..]);
      assert Serialize(todos)[0] == row && Serialize(todos)[1..] == Serialize(todos[1..]);
    }
  }

  /** Rewriting a canonical file with what was read from it loses nothing. */
  lemma RewriteIsLossless(rows: seq<Row>)
    requires Canonical(rows)
    ensures ParseTable(Serialize(ParseTable(rows))) == ParseTable(rows)
  {
    ParseTableIsParsed(rows);
    WriteThenRead(ParseTable(rows));
  }

  /** After any write, every record read back has exactly the columns id,
      text and completed: any other field, such as `userId`, is gone. */
  lemma OnlyColumnsPersisted(todos: seq<Object>)
    ensures forall i :: 0 <= i < |ParseTable(Serialize(todos))| ==>
              ParseTable(Serialize(todos))[i].Keys == Columns
    ensures forall i :: 0 <= i < |ParseTable(Serialize(todos))| ==>
              "userId" !in ParseTable(Serialize(todos))[i]
  {
    ParseTableIsParsed(Serialize(todos));
  }

  /** What a parsed record becomes when it is written and read again. */
  lemma ReparseParsed(o: Object, id: string)
    requires Parsed(o) && id != ""
    ensures KeepRow(ProjectRow(o))
    ensures ProjectRow(ParseRow(ProjectRow(o))) == ProjectRow(o)
    ensures HasId(ParseRow(ProjectRow(o)), id) <==> HasId(o, id)
    ensures Parsed(ParseRow(ProjectRow(o)))
  {
    var row := ProjectRow(o);
    assert row["id"] == Cell(o, "id");
    assert row["text"] == Cell(o, "text");
  }

  lemma {:induction false} RereadCommutesWithDelete(todos: seq<Object>, id: string)
    requires AllParsed(todos) && id != ""
    ensures WithoutId(ParseTable(Serialize(todos)), id) == ParseTable(Serialize(WithoutId(todos, id)))
  {
    var p := IdDiffers(id);
    if todos != [] {
      var o := todos[0];
      var o' := ParseRow(ProjectRow(o));
      ReparseParsed(o, id);
      RereadCommutesWithDelete(todos[1..], id);
      assert Serialize(todos) == [ProjectRow(o)] + Serialize(todos[1..]);
      assert ParseTable(Serialize(todos)) == [o'] + ParseTable(Serialize(todos[1..])) by {
        assert Serialize(todos)[0] == ProjectRow(o) && Serialize(todos)[1..] == Serialize(todos[1..]);
      }
      var kept := if p(o) then [o] else [];
      assert WithoutId(todos, id) == kept + WithoutId(todos[1..], id);
      SerializeAppend(kept, WithoutId(todos[1..], id));
      ParseTableAppend(Serialize(kept), Serialize(WithoutId(todos[1..], id)));
      FilterAppend([o'], ParseTable(Serialize(todos[1..])), p);
      if p(o) {
        assert Serialize(kept) == [ProjectRow(o)];
        assert ParseTable([ProjectRow(o)]) == [o'];
      }
    }
  }

  lemma {:induction false} RewriteIsFixedPoint(todos: seq<Object>)
    requires AllParsed(todos)
    ensures Serialize(ParseTable(Serialize(todos))) == Serialize(todos)
  {
    if todos != [] {
      var o := todos[0];
      ReparseParsed(o, "x");
      RewriteIsFixedPoint(todos[1..]);
      assert Serialize(todos)[0] == ProjectRow(o) && Serialize(todos)[1..] == Serialize(todos[1..]);
      assert ParseTable(Serialize(todos)) == [ParseRow(ProjectRow(o))] + ParseTable(Serialize(todos[1..]));
    }
  }

  // --------------------------------------------------------------- handlers

  /** What a handler decides: the list to write back (none: no write at all)
      and the response. */
  datatype Outcome = Outcome(write: Option<seq<Object>>, response: Response)

  /** The record POST builds, `{id: body.id, text: body.text, completed:
      body.completed}`, as it is stored and echoed: a key missing from the body
      is `undefined`, which neither the CSV writer nor JSON keeps. */
  function NewTodo(body: Object): (t: Object)
    ensures t.Keys == body.Keys * Columns
    ensures forall k :: k in t ==> t[k] == body[k]
  {
    map k | k in body && k in Columns :: body[k]
  }

  /** POST /api/todos: append one record, answer it. */
  function HandlePost(todos: seq<Object>, body: Object): (o: Outcome)
    ensures o.write.Some? && |o.write.value| == |todos| + 1
    ensures o.write.value[..|todos|] == todos && o.write.value[|todos|] == NewTodo(body)
    ensures o.response == Response(200, Fields(NewTodo(body)))
  {
    Outcome(Some(todos + [NewTodo(body)]), Response(200, Fields(NewTodo(body))))
  }

  /** PUT /api/todos/:id: shallow-merge the body into the first record with
      the id and answer the merged record, or answer 404 and write nothing. */
  function HandlePut(todos: seq<Object>, id: string, body: Object): (o: Outcome)
    ensures o.write.None? <==> forall j :: 0 <= j < |todos| ==> !HasId(todos[j], id)
    ensures o.write.None? ==> o.response == Response(404, Fields(NotFound))
    ensures o.write.Some? ==>
      var i := FindIndex(todos, id).value;
      var w := o.write.value;
      && |w| == |todos|
      && (forall j :: 0 <= j < |todos| && j != i ==> w[j] == todos[j])
      && w[i].Keys == todos[i].Keys + body.Keys
      && (forall k :: k in body ==> w[i][k] == body[k])
      && (forall k :: k in todos[i] && k !in body ==> w[i][k] == todos[i][k])
      && o.response == Response(200, Fields(w[i]))
  {
    match FindIndex(todos, id)
    case None => Outcome(None, Response(404, Fields(NotFound)))
    case Some(i) =>
      var merged := todos[i] + body;
      Outcome(Some(todos[i := merged]), Response(200, Fields(merged)))
  }

  /** DELETE /api/todos/:id: drop every record with the id, always succeed. */
  function HandleDelete(todos: seq<Object>, id: string): (o: Outcome)
    ensures o.write == Some(WithoutId(todos, id))
    ensures o.response == Response(200, Fields(Success))
  {
    Outcome(Some(WithoutId(todos, id)), Response(200, Fields(Success)))
  }

  /** The file after a handler's decision: rewritten, or untouched. */
  function Apply(file: seq<Row>, o: Outcome): seq<Row> {
    if o.write.Some? then Serialize(o.write.value) else file
  }

  /** PUT with an id the table lacks leaves the file exactly as it was. */
  lemma PutMissingLeavesFile(file: seq<Row>, id: string, body: Object)
    requires forall j :: 0 <= j < |ParseTable(file)| ==> !HasId(ParseTable(file)[j], id)
    ensures Apply(file, HandlePut(ParseTable(file), id, body)) == file
    ensures HandlePut(ParseTable(file), id, body).response.status == 404
  {
  }

  /** DELETE twice in a row leaves the same file as DELETE once. The route
      `/api/todos/:id` never matches an empty id. */
  lemma DeleteTwiceIsDeleteOnce(file: seq<Row>, id: string)
    requires id != ""
    ensures var once := Apply(file, HandleDelete(ParseTable(file), id));
            Apply(once, HandleDelete(ParseTable(once), id)) == once
  {
    var x := WithoutId(ParseTable(file), id);
    ParseTableIsParsed(file);
    assert AllParsed(x);
    RereadCommutesWithDelete(x, id);
    WithoutIdIdempotent(ParseTable(file), id);
    RewriteIsFixedPoint(x);
  }

  /** POST then GET on a canonical file: the table is the old one plus the
      posted record, with every supplied field verbatim, exactly once. */
  lemma PostThenGet(file: seq<Row>, body: Object)
    requires Canonical(file)
    requires WellFormed(NewTodo(body))
    ensures ParseTable(Apply(file, HandlePost(ParseTable(file), body))) == ParseTable(file) + [NewTodo(body)]
  {
    ParseTableIsParsed(file);
    WriteThenRead(ParseTable(file) + [NewTodo(body)]);
  }

  // ----------------------------------------------------------------- store

  class Server {
    /** The rows of db.csv below its header row. */
    var file: seq<Row>

    /** Startup: a missing file is created holding only the header row. */
    constructor(existing: Option<seq<Row>>)
      ensures file == (if existing.Some? then existing.value else [])
      ensures existing.None? ==> ParseTable(file) == []
    {
      file := if existing.Some? then existing.value else [];
    }

    /** `readTodos`: each row the parser emits is checked, coerced and pushed. */
    method ReadTodos() returns (todos: seq<Object>)
      ensures todos == ParseTable(file)
    {
      todos := [];
      var i := 0;
      while i < |file|
        invariant 0 <= i <= |file|
        invariant todos == ParseTable(file[..i])
      {
        var data := file[i];
        ParseTableAppend(file[..i], [data]);
        assert file[..i + 1] == file[..i] + [data];
        if KeepRow(data) {
          todos := todos + [ParseRow(data)];
        }
        i := i + 1;
      }
      assert file[..i] == file;
    }

    /** `writeTodos`: the file is replaced, header and all. */
    method WriteTodos(todos: seq<Object>)
      modifies this
      ensures file == Serialize(todos)
    {
      file := Serialize(todos);
    }

    method Get() returns (resp: Response)
      ensures resp == Response(200, Items(ParseTable(file)))
    {
      var todos := ReadTodos();
      resp := Response(200, Items(todos));
    }

    method Post(body: Object) returns (resp: Response)
      modifies this
      ensures var o := HandlePost(ParseTable(old(file)), body);
              file == Apply(old(file), o) && resp == o.response
    {
      var todos := ReadTodos();
      var newTodo := NewTodo(body);
      todos := todos + [newTodo];
      WriteTodos(todos);
      resp := Response(200, Fields(newTodo));
    }

    method Put(id: string, body: Object) returns (resp: Response)
      modifies this
      ensures var o := HandlePut(ParseTable(old(file)), id, body);
              file == Apply(old(file), o) && resp == o.response
    {
      var todos := ReadTodos();
      var index := FindIndex(todos, id);
      if index.Some? {
        var i := index.value;
        todos := todos[i := todos[i] + body];
        WriteTodos(todos);
        resp := Response(200, Fields(todos[i]));
      } else {
        resp := Response(404, Fields(NotFound));
      }
    }

    method Delete(id: string) returns (resp: Response)
      modifies this
      ensures var o := HandleDelete(ParseTable(old(file)), id);
              file == Apply(old(file), o) && resp == o.response
    {
      var todos := ReadTodos();
      var newTodos := WithoutId(todos, id);
      WriteTodos(newTodos);
      resp := Response(200, Fields(Success));
    }
  }
}

=== FILE: user_context.dfy ===
/** The browser's copy of the user list: one state cell, appended to when an
    add settles and filtered when a delete settles. */
module UserContext {
  import opened Json
  import opened Http
  import opened Records

  const UsersPath: string := "/api/users"

  /** The request of the initial load. */
  function LoadUsers(): (req: Request)
    ensures req.verb == Get && req.path == UsersPath && req.body.None?
  {
    Request(Get, UsersPath, None)
  }

  /** `addUser(name, color)` with `freshId` for `crypto.randomUUID()`. */
  function AddUser(freshId: string, name: string, color: string): (req: Request)
    ensures req.verb == Post && req.path == UsersPath && req.body.Some?
    ensures req.body.value.Keys == {"id", "name", "color"}
    ensures req.body.value["id"] == Str(freshId)
    ensures req.body.value["name"] == Str(name) && req.body.value["color"] == Str(color)
  {
    Request(Post, UsersPath, Some(map["id" := Str(freshId), "name" := Str(name), "color" := Str(color)]))
  }

  /** `deleteUser(id)`: the DELETE it sends. */
  function DeleteUser(id: string): (req: Request)
    ensures req.verb == Delete && req.path == UsersPath + "/" + id && req.body.None?
  {
    Request(Delete, UsersPath + "/" + id, None)
  }

  class UserClient {
    /** The `users` state cell. */
    var users: seq<Object>

    constructor()
      ensures users == []
    {
      users := [];
    }

    method SettleLoad(reply: Settled<seq<Object>>)
      modifies this
      ensures users == (if reply.Resolved? then reply.value else old(users))
    {
      if reply.Resolved? {
        users := reply.value;
      }
    }

    method SettleAdd(reply: Settled<Object>)
      modifies this
      ensures reply.Resolved? ==> users == old(users) + [reply.value]
      ensures reply.Rejected? ==> users == old(users)
    {
      if reply.Resolved? {
        users := users + [reply.value];
      }
    }

    /** Every user with the id goes, whatever the status of the response. */
    method SettleDelete(id: string, reply: Settled<int>)
      modifies this
      ensures reply.Resolved? ==> users == WithoutId(old(users), id)
      ensures reply.Rejected? ==> users == old(users)
    {
      if reply.Resolved? {
        users := WithoutId(users, id);
      }
    }
  }
}
